=== FILE: README.md ===
# Week 1 Python exercises: a Dafny model

This project models the computational core of a set of first-week Python
exercises in quantitative biology, and proves properties of that model:

- **Population dynamics.** Three prey/predator schemes advance a resource
  density `R` and a consumer density `C` step by step. Each clamps both
  densities at zero after every step:
  - the discrete recurrence with carrying capacity (`LV3.py`);
  - the same recurrence with per-step Gaussian noise on the growth rate and,
    optionally, on mortality (`LV4.py`);
  - a fixed-step forward-Euler scheme (`LV2.py`).

  Each is a recursive "state after `i` steps" function, instantiating the
  generic `Population.Iterate`. An imperative method mirrors each Python
  loop over preallocated arrays and is proved equal to the recursive
  function.
- **Sequence alignment** (`align_seqs.py`). The scorer slides the shorter DNA
  string along the longer one and counts matches. The best-offset search
  keeps the first offset with the highest score. The alignment picture is
  built from that offset.
- **Control flow** (`cfexercises1.py`): the larger of two numbers, sorting
  three numbers by conditional swaps, and factorial written three ways.
- **Comprehensions and dictionaries** (`lc1.py`, `lc2.py`, `dictionary.py`,
  `tuple.py`): squares, evens, lengths, flatten, unique-sorted, word lengths,
  the vowel filter, the Cartesian product, dictionary inversion, token
  counting, the merge with sums, sorting items by value, swap, coordinate
  labelling and unzip.

Python values are modelled as follows:

- Floats are Dafny `real`.
- Python `int` is `int`.
- Strings are `seq<char>`.
- A Python `dict` is `Dicts.Dict`: a map paired with the sequence of its
  keys in insertion order. A store of a new key appends it to that sequence.
  A store of an existing key leaves its place unchanged.
- Raised exceptions are `Results.Result` values: `Err(ValueError)`,
  `Err(IndexError)` and `Err(ZeroDivisionError)`.
- numpy's seeded generator in `LV4.py` is replaced by the stream it
  produces. `draws(k)` is the `k`-th standard-normal value the generator
  would yield.

Errors and edge cases follow the code:

- **No parameter validation.** `simulate` validates no parameter. The model
  reproduces only the errors Python and numpy raise themselves:
  - `np.zeros` with a negative size raises ValueError;
  - `R[0]` on an empty array raises IndexError;
  - `tmax / dt` with `dt = 0` raises ZeroDivisionError;
  - `normal` with a negative `scale` raises ValueError at the first draw, so
    a run that takes no step succeeds.

  One numpy error is outside the model: `default_rng` raises ValueError for
  a negative seed. It is listed under "Left out".
- **Sample count.** `LV2.py` computes `int(tmax / dt) + 1` samples, and
  `int` truncates toward zero. `EulerLV.SampleCountIsFloor` proves this is
  `floor(tmax / dt) + 1` when `tmax >= 0` and `dt > 0`.
- **Zero noise.** A `sigma = 0` run of `LV4.py` equals the `LV3.py` run
  whenever `z >= 0` (`StochasticLV.ZeroSigmaMatchesDiscrete`). When `both`
  is set and `z < 0`, the clamp `max(z + 0.0, 0.0)` raises the mortality to
  0, so the two runs can differ once the consumer density is non-zero.

## Model

| member | source | states |
|---|---|---|
| Population.Clamp | week1/code/LV3.py:20-21 | `max(x, 0.0)` is non-negative, keeps non-negative values and sends negative ones to 0 |
| DiscreteLV.Step | week1/code/LV3.py:20-21 | one update of the recurrence yields non-negative densities, and a density that is exactly 0 stays 0 |
| DiscreteLV.StateAfter | week1/code/LV3.py:19-21 | every state after at least one step is non-negative, whatever the parameters |
| DiscreteLV.Simulate | week1/code/LV3.py:13-22 | the run succeeds exactly when `tmax >= 0`; `tmax < -1` raises ValueError and `tmax = -1` IndexError; `t`, `R`, `C` have `tmax + 1` samples, `t[i] = i`, and the first sample is `(R0, C0)` unclamped |
| DiscreteLV.SimulateLoop | week1/code/LV3.py:13-22 | the loop over preallocated arrays returns exactly the trajectory of the recurrence, error cases included |
| DiscreteLV.StepRule | week1/code/LV3.py:20-21 | every sample after the first is the update applied to the previous sample, with the consumer update reading the old `R[i]` |
| DiscreteLV.NonNegativeSamples | week1/code/LV3.py:20-21 | all samples after the first are non-negative, and the first too when `R0, C0 >= 0` |
| DiscreteLV.ExtinctionIsPermanent | week1/code/LV3.py:20-21 | a density that is 0 after `i` steps is 0 after every `j >= i` steps |
| DiscreteLV.TrajectoryExtinction | week1/code/LV3.py:19-21 | in the returned arrays, `R[i] = 0` implies `R[j] = 0` for all later `j`, and likewise for `C` |
| StochasticLV.RatesAt | week1/code/LV4.py:21-27 | defines step `i`'s rates as `r` plus `sigma` times draw `DrawCount(both, i)` and, with `both`, `z` plus `sigma` times the next draw; the contract states that `a`, `e` and `K` are never touched, that `z` is unchanged without `both`, and that with `both` the clamp keeps `z` at 0 or above |
| StochasticLV.DrawRates | week1/code/LV4.py:21-27 | the loop body draws `eps_r` first and `eps_z` second only when `both` is set, yields the rates of step `i`, and leaves the cursor at the first draw of step `i + 1` |
| StochasticLV.StateAfter | week1/code/LV4.py:20-29 | every noisy state after at least one step is non-negative, whatever the draws |
| StochasticLV.Simulate | week1/code/LV4.py:13-30 | succeeds exactly when `tmax = 0`, or `tmax >= 1` and `sigma >= 0`; the error cases are ValueError, IndexError, and ValueError for a negative scale; on success `tmax + 1` samples, `t[i] = i`, first sample `(R0, C0)` |
| StochasticLV.SimulateLoop | week1/code/LV4.py:15-30 | the loop reading the generator in order returns exactly `Simulate`'s result and consumes `tmax` draws, or `2 * tmax` with `both`, and none on an error |
| StochasticLV.OnlyConsumedDrawsMatter | week1/code/LV4.py:15-29 | two draw streams that agree on the first `DrawCount(both, n)` values give the same first `n + 1` states, so a fixed seed fixes the trajectory |
| StochasticLV.StepRule | week1/code/LV4.py:21-29 | every sample after the first is the discrete update, with that step's perturbed rates, applied to the previous sample in the returned arrays |
| StochasticLV.NonNegativeSamples | week1/code/LV4.py:28-29 | every sample after the first is non-negative for any draws, and the first too when `R0, C0 >= 0` |
| StochasticLV.ExtinctionIsPermanent | week1/code/LV4.py:28-29 | a density that is 0 after `i` noisy steps stays 0 for any draws |
| StochasticLV.TrajectoryExtinction | week1/code/LV4.py:20-29 | in the returned arrays a zero density stays zero at every later index, for any draws |
| StochasticLV.ZeroNoiseIsDiscrete | week1/code/LV4.py:21-29 | when every consumed perturbation is 0, the noisy states are the discrete recurrence's states with `z` clamped at 0 under `both` |
| StochasticLV.ZeroSigmaMatchesDiscrete | week1/code/LV4.py:13-30 | with `sigma = 0`, and `z >= 0` when `both` is set, the stochastic `simulate` returns exactly the discrete scheme's result, errors included |
| EulerLV.Trunc | week1/code/LV2.py:19 | `int(x)` truncates toward zero: for `x >= 0` it is the floor, for `x < 0` the ceiling |
| EulerLV.Linspace | week1/code/LV2.py:20 | `n` points, the first 0, the last `tmax` when `n >= 2`, and consecutive points `tmax / (n - 1)` apart |
| EulerLV.EulerStep | week1/code/LV2.py:24-27 | one Euler step yields non-negative densities, and a density that is 0 stays 0 |
| EulerLV.StateAfter | week1/code/LV2.py:23-27 | every state after at least one step is non-negative |
| EulerLV.Simulate | week1/code/LV2.py:17-28 | `dt = 0` raises ZeroDivisionError, a negative count ValueError and a zero count IndexError; otherwise the three arrays have `int(tmax/dt) + 1` samples, `t` is the linspace, and the first sample is `(R0, C0)` |
| EulerLV.SimulateLoop | week1/code/LV2.py:17-28 | the loop over preallocated arrays returns exactly the Euler trajectory, error cases included |
| EulerLV.SampleCountIsFloor | week1/code/LV2.py:19-20 | for `tmax >= 0` and `dt > 0` the count is `floor(tmax/dt) + 1 >= 1`, the run succeeds, `t[0] = 0` and, when there are at least two samples, the last time is `tmax` (for `0 < tmax < dt` the only sample is at time 0) |
| EulerLV.DoublingStepHalvesSamples | week1/code/LV2.py:19 | doubling `dt` at a fixed horizon halves the sample count, give or take one |
| EulerLV.StepRule | week1/code/LV2.py:24-27 | every sample after the first is the Euler update of the previous sample, both derivatives read from the old state |
| EulerLV.NonNegativeSamples | week1/code/LV2.py:26-27 | all samples after the first are non-negative, and the first too when `R0, C0 >= 0` |
| EulerLV.ExtinctionIsPermanent | week1/code/LV2.py:24-27 | a density that is 0 after `i` steps is 0 after every later step |
| EulerLV.TrajectoryExtinction | week1/code/LV2.py:23-27 | in the returned arrays a zero density stays zero at every later index |
| Alignment.ScoreBounds | week1/code/align_seqs.py:27-34 | `0 <= score <= min(len(shorter), max(len(longer) - offset, 0))` |
| Alignment.MatchesBeyondEnd | week1/code/align_seqs.py:29-31 | once `i + offset` reaches the end of `longer`, the remaining indices add no match, so the `break` loses nothing |
| Alignment.ScoreAlignment | week1/code/align_seqs.py:25-34 | the loop with its early `break` returns the number of indices `i` with `i + offset < len(longer)` and `shorter[i] == longer[i + offset]` |
| Alignment.Search | week1/code/align_seqs.py:45-49 | over offsets `0 .. k-1` the result is -1 at offset 0 when there are none; otherwise its score is the score at its offset, no offset scores higher, and every earlier offset scores strictly lower |
| Alignment.SearchLoop | week1/code/align_seqs.py:45-49 | the offset loop with its strict `>` test finds the same best score and first best offset |
| Alignment.MatchLineLoop | week1/code/align_seqs.py:53-59 | the character-by-character loop builds the match line |
| Alignment.BestAlignment | week1/code/align_seqs.py:36-83 | `longer` is `seq1` unless `seq2` is strictly longer; score -1 and offset 0 for an empty `longer`, otherwise a non-negative maximal score at the first offset reaching it; `top` is `longer`, `bottom` is `offset` spaces then `shorter`, and `mid[i]` is a bar exactly where `bottom[i] == longer[i]` |
| Alignment.BestAlignmentLoop | week1/code/align_seqs.py:36-83 | the loops, and both branches of the swap test, produce exactly the picture of `BestAlignment` |
| Alignment.BarsCountMatches | week1/code/align_seqs.py:52-59 | if `longer` has no space, the bars in the first `offset + n` characters of the match line count the matches of the first `n` characters of `shorter` |
| Alignment.BarsCountScore | week1/code/align_seqs.py:52-59 | if `longer` has no space, the bars in `mid` number exactly the reported score, or 0 when both strings are empty |
| ControlFlow.Larger | week1/code/cfexercises1.py:16-18 | the result is at least `x` and at least `y` and is one of them |
| ControlFlow.OrderAt | week1/code/cfexercises1.py:22-24 | one conditional swap puts the two positions in order, never raises the first, leaves the rest alone and permutes the values |
| ControlFlow.SortThree | week1/code/cfexercises1.py:20-25 | the three swaps return a sorted list of three that is a permutation of `[x, y, z]` |
| ControlFlow.FactorialStep | week1/code/cfexercises1.py:27-34 | the reference product gives `0! = 1` and `(n+1)! = n! * (n+1)` |
| ControlFlow.FactorialPositive | week1/code/cfexercises1.py:27-34 | every factorial is at least 1 |
| ControlFlow.FactorialUnfold | week1/code/cfexercises1.py:42 | one recursive step `n * foo_5(n - 1)` gives `n!` when the recursive call gives `(n-1)!`, and the result is positive |
| ControlFlow.FactorialRecursive | week1/code/cfexercises1.py:36-42 | negative `n` raises ValueError; otherwise the recursion returns the product `1 * ... * n`, and 1 for `n = 0`; every result it returns is at least 1 |
| ControlFlow.FactorialFor | week1/code/cfexercises1.py:27-34 | negative `n` raises ValueError; otherwise `out = (i-1)!` before each iteration, so the result is `n!`, equal to the recursive version |
| ControlFlow.FactorialWhile | week1/code/cfexercises1.py:44-52 | negative `n` raises ValueError; otherwise `out * n! = n0!` holds on each iteration, so the result is `n0!`, equal to the recursive version |
| ListComprehensions.SquaresComp | week1/code/lc1.py:13-14 | `max(n, 0)` elements, element `i` is `i*i`, strictly increasing |
| ListComprehensions.SquaresLoop | week1/code/lc1.py:7-11 | the append loop builds exactly the comprehension's list |
| ListComprehensions.Evens | week1/code/lc1.py:16-17 | every element is even, each even value keeps its multiplicity and odd values are gone, and the result is a subsequence of the input |
| ListComprehensions.Lengths | week1/code/lc1.py:19-20 | one entry per name, entry `i` being the length of `names[i]` |
| ListComprehensions.FlattenLength | week1/code/lc1.py:22-23 | the flattened list's length is the sum of the inner lengths |
| ListComprehensions.FlattenAppend | week1/code/lc1.py:22-23 | flattening distributes over concatenation, so the inner lists appear in order |
| ListComprehensions.FlattenMembers | week1/code/lc1.py:22-23 | an item is in the result exactly when it is in one of the inner lists |
| ListComprehensions.UniqueSorted | week1/code/lc1.py:25-27 | the result is strictly increasing and has exactly the input's elements |
| ListComprehensions.StrictlyIncreasingUnique | week1/code/lc1.py:25-27 | two strictly increasing lists with the same elements are equal |
| ListComprehensions.UniqueSortedCharacterization | week1/code/lc1.py:25-27 | the result is the only strictly increasing list with the input's elements |
| ListComprehensions.UniqueSortedIdempotent | week1/code/lc1.py:25-27 | applying it to its own output returns that output |
| ListComprehensions.UniqueSortedExample | week1/code/lc1.py:35 | `[3, 1, 2, 3, 2]` gives `[1, 2, 3]` |
| MoreComprehensions.WordLengths | week1/code/lc2.py:7-8 | the keys are exactly the words, each mapped to its length |
| MoreComprehensions.VowelsOnly | week1/code/lc2.py:10-11 | every kept character lowers to a vowel, vowel characters keep their multiplicity and others are dropped, and the result is a subsequence of `s` |
| MoreComprehensions.VowelsOnlyExample | week1/code/lc2.py:26 | `'MulQuaBio'` gives `u, u, a, i, o` |
| MoreComprehensions.Cartesian | week1/code/lc2.py:13-14 | `len(a) * len(b)` pairs, a pair occurring exactly when its first part is in `a` and its second in `b` |
| MoreComprehensions.CartesianAt | week1/code/lc2.py:13-14 | element `i * len(b) + j` is `(a[i], b[j])`, row-major |
| MoreComprehensions.InvertPrefixLists | week1/code/lc2.py:18-20 | after `n` items, value `v` is present exactly when one of those items has it, and its list is those items' keys in `d`'s order |
| MoreComprehensions.InvertPrefixTotal | week1/code/lc2.py:18-20 | after `n` items the dictionary is well formed and its lists hold `n` keys between them |
| MoreComprehensions.InvertEntry | week1/code/lc2.py:16-21 | for one value `v`: present exactly when some key maps to it, and its list is the keys holding `v` in `d`'s order |
| MoreComprehensions.InvertDict | week1/code/lc2.py:16-21 | keys are exactly the values of `d`; `k` is in `inv[v]` exactly when `d[k] == v`; each list follows `d`'s order without repeats; the list lengths sum to `len(d)` |
| Dicts.Put | week1/code/dictionary.py:23 | a store keeps the dictionary well formed, adds at most one key, and keeps the existing key order as a prefix |
| Dicts.GetPut | week1/code/dictionary.py:23 | `get` after a store sees the stored value at that key and the old one elsewhere |
| Dicts.TotalPut | week1/code/dictionary.py:11 | a store changes the sum of the values by the new weight less the replaced one |
| Dicts.FromPairsSpec | week1/code/dictionary.py:15 | the dictionary built from pairs is well formed, has exactly the pairs' keys, and each key holds the value of its last pair |
| Dicts.TotalIncrement | week1/code/dictionary.py:11 | `d[k] += 1` on a `defaultdict(int)` raises the sum of the values by exactly one |
| DictionaryPatterns.CountStep | week1/code/dictionary.py:10-11 | one more token `t` keeps the counts exact: the keys become the tokens of `init + [t]`, each count is that token's number of occurrences, and the sum grows to the new token count |
| DictionaryPatterns.CountTokens | week1/code/dictionary.py:8-12 | keys are exactly the tokens, `cnt[t]` is the number of occurrences of `t` and at least 1, and the counts sum to the number of tokens |
| DictionaryPatterns.ListOfTuplesToDict | week1/code/dictionary.py:14-15 | keys are exactly the first components, and each key holds the value of its last pair |
| DictionaryPatterns.ItemLessTotal | week1/code/dictionary.py:18 | two distinct items are ordered one way or the other by the `(value, key)` sort key |
| DictionaryPatterns.Sort | week1/code/dictionary.py:18 | `sorted` returns a permutation, strictly ascending by `(value, key)` when the items are distinct |
| DictionaryPatterns.Items | week1/code/dictionary.py:18 | `d.items()` lists each key once with its value |
| DictionaryPatterns.DictToSortedItems | week1/code/dictionary.py:17-18 | a permutation of `d.items()`, holding exactly `d`'s pairs, strictly increasing in `(value, key)` order |
| DictionaryPatterns.MergePrefixEntries | week1/code/dictionary.py:21-23 | after `n` items of `d2`, a key is present when it is in `d1` or among them, and holds `d1.get(k, 0)` plus its value in `d2` if seen |
| DictionaryPatterns.MergeSum | week1/code/dictionary.py:20-24 | keys are those of `d1` or `d2` with `d1`'s order first; `out[k] = d1.get(k, 0) + d2.get(k, 0)`; an empty `d2` returns `d1` |
| TupleBasics.SwapInvolution | week1/code/tuple.py:7-10 | swapping twice gives back the original pair |
| TupleBasics.Decimal | week1/code/tuple.py:14 | `str(i)` for `i >= 0` is a non-empty string of digits without a leading zero |
| TupleBasics.DecimalRoundTrip | week1/code/tuple.py:14 | reading back the printed index gives the index, so distinct positions get distinct labels |
| TupleBasics.CoordsToDict | week1/code/tuple.py:12-14 | keys are exactly the coordinates, and each holds `label` followed by the 1-based position of its last occurrence |
| TupleBasics.Unzip | week1/code/tuple.py:16-19 | two lists as long as `pairs`, holding the first and second components; `([], [])` for no pairs |
| TupleBasics.ZipUnzip | week1/code/tuple.py:16-19 | zipping the two lists back together recovers the pairs |
| TupleBasics.UnzipZip | week1/code/tuple.py:16-19 | unzipping two equally long zipped lists gives them back |

## Left out

- `LV1.py` is not modelled. Its integration is delegated to scipy's
  `odeint`, an adaptive solver outside this model, and the rest is plotting.
- The `main()` functions are not modelled: command-line parsing, plotting,
  directory creation, file writes and printing. So are the `_demo` and
  `__main__` blocks, apart from the documented examples proved as lemmas.
- `LVspeedtest.py`, `Vectorize1.py`, `Vectorize2.py` and `boilerplate.py`
  are not modelled: they do timing, subprocess launches, floating-point
  benchmarks and script templating.
- `foo_1` is not modelled: it is a floating-point square root.
- `read_two_sequences` is not modelled: it reads a CSV file and does Unicode
  `strip`/`upper`. `best_alignment` is modelled on strings that are already
  read.
- Floating point is not modelled. All arithmetic is exact over `real`:
  there is no rounding, overflow, infinity or NaN.
- The default parameter values are not modelled. Every parameter is an
  explicit argument.
- DiscreteLV.Simulate: `K != 0` is a precondition. With `K = 0`, numpy
  divides to infinity or NaN, which exact arithmetic cannot express. The
  same precondition holds for every population member.
- DiscreteLV.Simulate: `tmax` is an integer, so `int(tmax)` is the identity.
  A float `tmax` in `LV3.py` and `LV4.py` is not modelled.
- StochasticLV.Simulate: the model has no seed. A negative seed makes
  `np.random.default_rng` raise ValueError before any array is built,
  whatever `tmax` and `sigma` are. That error is not modelled.
- StochasticLV.Simulate: seeding and numpy's normal distribution are not
  modelled. The draws are an input function, and only their order and count
  are modelled, not their statistics.
- EulerLV.Linspace: this is the exact value `i * tmax / (n - 1)`, with the
  last point set to `tmax`. numpy's floating-point evaluation of that
  formula is not modelled.
- Alignment.ScoreAlignment: `offset` is a natural number. Negative offsets
  would make Python index from the end. `best_alignment` never passes one.
- DictionaryPatterns.CountTokens: the order of the keys is not stated. It is
  the order of first occurrence.
- DictionaryPatterns.ListOfTuplesToDict: the order of the keys is not
  stated. It is the order of first occurrence.
- MoreComprehensions.WordLengths: the order of the keys is not stated.
- TupleBasics.CoordsToDict: the order of the keys is not stated.
- MoreComprehensions.InvertDict: the order of the values, as keys of the
  result, is not stated. The order of each list is stated.
- MoreComprehensions.VowelsOnly: `lower()` is modelled on ASCII letters
  only. The result, a Python list of one-character strings, is a
  `seq<char>`.
- TupleBasics.CoordsToDict: the parameter `label` is spelled `tag`, because
  `label` is a Dafny keyword.
- ControlFlow.FactorialRecursive: the result is `n!` for every `n >= 0`.
  `foo_5` recurses `n` levels deep, so under CPython's default recursion
  limit of 1000 it raises RecursionError for `n` near 1000 and above. That
  error is not modelled.
- ControlFlow.SortThree: the three variables `x, y, z` are the three
  positions of a sequence, and each tuple swap exchanges two positions.
- DictionaryPatterns.MergeSum: "`d1` is unchanged" needs no statement.
  Dictionaries are immutable values here, so the copy `dict(d1)` is `d1`
  itself.

=== FILE: align.dfy ===
/** Sliding alignment of two DNA strings: the shorter is placed at each
    offset along the longer, matches are counted, and the first offset with
    the most matches is reported with a picture of the alignment
    (week1/code/align_seqs.py, `score_alignment` and `best_alignment`). */
module Alignment {

  /** The matches among the first `n` characters of `shorter` placed at
      `offset` along `longer`: positions inside `longer` holding the same
      character. */
  function Matches(longer: string, shorter: string, offset: nat, n: nat): nat
    requires n <= |shorter|
  {
    if n == 0 then 0
    else
      Matches(longer, shorter, offset, n - 1)
      + (if n - 1 + offset < |longer| && shorter[n - 1] == longer[n - 1 + offset] then 1 else 0)
  }

  /** The number of indices `i < |shorter|` with `i + offset < |longer|` and
      `shorter[i] == longer[i + offset]`. */
  function Score(longer: string, shorter: string, offset: nat): nat
  {
    Matches(longer, shorter, offset, |shorter|)
  }

  lemma {:induction false} MatchesBounds(longer: string, shorter: string, offset: nat, n: nat)
    requires n <= |shorter|
    ensures Matches(longer, shorter, offset, n) <= n
    ensures Matches(longer, shorter, offset, n) <= if |longer| > offset then |longer| - offset else 0
  {
    if n > 0 {
      MatchesBounds(longer, shorter, offset, n - 1);
      if n - 1 + offset < |longer| {
        assert Matches(longer, shorter, offset, n - 1) <= n - 1;
      }
    }
  }

  /** A score never exceeds the length of `shorter`, nor the part of
      `longer` from `offset` on. */
  lemma ScoreBounds(longer: string, shorter: string, offset: nat)
    ensures 0 <= Score(longer, shorter, offset) <= |shorter|
    ensures Score(longer, shorter, offset) <= if |longer| > offset then |longer| - offset else 0
  {
    MatchesBounds(longer, shorter, offset, |shorter|);
  }

  /** Once the placed string runs past the end of `longer` no further match
      is possible, so stopping there loses nothing. */
  lemma {:induction false} MatchesBeyondEnd(longer: string, shorter: string, offset: nat, m: nat, n: nat)
    requires m <= n <= |shorter| && m + offset >= |longer|
    ensures Matches(longer, shorter, offset, n) == Matches(longer, shorter, offset, m)
    decreases n
  {
    if m < n {
      MatchesBeyondEnd(longer, shorter, offset, m, n - 1);
    }
  }

  /** `score_alignment(longer, shorter, offset)`: counts matches left to
      right and breaks at the first index beyond the end of `longer`. */
  method ScoreAlignment(longer: string, shorter: string, offset: nat) returns (score: int)
    ensures score == Score(longer, shorter, offset)
  {
    score := 0;
    var i := 0;
    while i < |shorter|
      invariant 0 <= i <= |shorter|
      invariant score == Matches(longer, shorter, offset, i)
    {
      var j := i + offset;
      if j >= |longer| {
        MatchesBeyondEnd(longer, shorter, offset, i, |shorter|);
        return;
      }
      if shorter[i] == longer[j] {
        score := score + 1;
      }
      i := i + 1;
    }
  }

  /** The best score and offset found so far. */
  datatype Best = Best(score: int, offset: nat)

  /** The search over the offsets `0 .. k-1`, starting from score -1 and
      replacing the best only on a strictly higher score: the result is the
      maximum score, at the FIRST offset that reaches it. */
  function Search(longer: string, shorter: string, k: nat): (b: Best)
    ensures k == 0 ==> b == Best(-1, 0)
    ensures k > 0 ==> b.offset < k && b.score == Score(longer, shorter, b.offset)
    ensures forall o :: 0 <= o < k ==> Score(longer, shorter, o) <= b.score
    ensures forall o :: 0 <= o < b.offset ==> Score(longer, shorter, o) < b.score
  {
    if k == 0 then Best(-1, 0)
    else
      var prev := Search(longer, shorter, k - 1);
      var s := Score(longer, shorter, k - 1);
      if s > prev.score then Best(s, k - 1) else prev
  }

  /** `n` spaces. */
  function Spaces(n: nat): string
  {
    seq(n, _ => ' ')
  }

  /** The middle line of the picture: `|` where the aligned string has the
      same character as `longer`, a space elsewhere. */
  function MatchLine(aligned: string, longer: string): string
  {
    seq(|aligned|, i requires 0 <= i < |aligned| => if i < |longer| && aligned[i] == longer[i] then '|' else ' ')
  }

  /** The result of `best_alignment`. */
  datatype Aligned = Aligned(score: int, offset: nat, longer: string, shorter: string,
                             top: string, mid: string, bottom: string)

  /** `best_alignment(seq1, seq2)`. `seq1` is the longer unless `seq2` is
      strictly longer. Both branches of the final swap test show `longer` on
      top and the shifted `shorter` below. */
  function BestAlignment(seq1: string, seq2: string): (res: Aligned)
    ensures |seq1| >= |seq2| ==> res.longer == seq1 && res.shorter == seq2
    ensures |seq1| < |seq2| ==> res.longer == seq2 && res.shorter == seq1
    ensures |res.longer| >= |res.shorter|
    ensures |res.longer| == 0 ==> res.score == -1 && res.offset == 0
    ensures |res.longer| > 0 ==> res.offset < |res.longer| && 0 <= res.score == Score(res.longer, res.shorter, res.offset)
    ensures forall o :: 0 <= o < |res.longer| ==> Score(res.longer, res.shorter, o) <= res.score
    ensures forall o :: 0 <= o < res.offset ==> Score(res.longer, res.shorter, o) < res.score
    ensures res.top == res.longer
    ensures res.bottom == Spaces(res.offset) + res.shorter
    ensures |res.mid| == |res.bottom|
    ensures forall i :: 0 <= i < |res.mid| ==>
              res.mid[i] == if i < |res.longer| && res.bottom[i] == res.longer[i] then '|' else ' '
  {
    var swapped := |seq1| < |seq2|;
    var (longer, shorter) := if swapped then (seq2, seq1) else (seq1, seq2);
    var best := Search(longer, shorter, |longer|);
    var aligned := Spaces(best.offset) + shorter;
    Aligned(best.score, best.offset, longer, shorter, longer, MatchLine(aligned, longer), aligned)
  }

  /** The offset loop of `best_alignment`: every offset along `longer` is
      scored with `score_alignment`, keeping the first strictly better one. */
  method SearchLoop(longer: string, shorter: string) returns (best: Best)
    ensures best == Search(longer, shorter, |longer|)
  {
    var bestScore, bestOffset := -1, 0;
    var offset := 0;
    while offset < |longer|
      invariant 0 <= offset <= |longer|
      invariant Best(bestScore, bestOffset) == Search(longer, shorter, offset)
    {
      var s := ScoreAlignment(longer, shorter, offset);
      ghost var prev := Search(longer, shorter, offset);
      assert Search(longer, shorter, offset + 1)
        == if s > prev.score then Best(s, offset) else prev;
      if s > bestScore {
        bestScore, bestOffset := s, offset;
      }
      offset := offset + 1;
    }
    best := Best(bestScore, bestOffset);
  }

  /** The match line built one character at a time. */
  method MatchLineLoop(aligned: string, longer: string) returns (mid: string)
    ensures mid == MatchLine(aligned, longer)
  {
    mid := [];
    var i := 0;
    while i < |aligned|
      invariant 0 <= i <= |aligned|
      invariant mid == MatchLine(aligned, longer)[..i]
    {
      if i < |longer| && aligned[i] == longer[i] {
        mid := mid + ['|'];
      } else {
        mid := mid + [' '];
      }
      i := i + 1;
    }
  }

  /** `best_alignment` with its loops and both branches of the final swap
      test, which store the same picture. */
  method BestAlignmentLoop(seq1: string, seq2: string) returns (res: Aligned)
    ensures res == BestAlignment(seq1, seq2)
  {
    var longer, shorter, swapped;
    if |seq1| >= |seq2| {
      longer, shorter, swapped := seq1, seq2, false;
    } else {
      longer, shorter, swapped := seq2, seq1, true;
    }
    var best := SearchLoop(longer, shorter);
    var aligned := Spaces(best.offset) + shorter;
    var mid := MatchLineLoop(aligned, longer);
    var top, bottom;
    if swapped {
      // The first two stores are overwritten before they are read.
      top := seq2;
      bottom := if |seq2| < |seq1| then Spaces(best.offset) + seq1 else aligned;
      top, bottom := longer, aligned;
    } else {
      top, bottom := longer, aligned;
    }
    res := Aligned(best.score, best.offset, longer, shorter, top, mid, bottom);
  }

  /** Counting the bars of the first `offset + n` characters of the match
      line counts the matches of the first `n` characters of `shorter`,
      provided `longer` has no space that a leading space could match. */
  lemma {:induction false} BarsCountMatches(longer: string, shorter: string, offset: nat, n: nat)
    requires ' ' !in longer
    requires n <= |shorter|
    ensures var line := MatchLine(Spaces(offset) + shorter, longer);
      multiset(line[..offset + n])['|'] == Matches(longer, shorter, offset, n)
  {
    var aligned := Spaces(offset) + shorter;
    var line := MatchLine(aligned, longer);
    if n == 0 {
      assert forall i :: 0 <= i < offset ==> line[i] == ' ' by {
        forall i | 0 <= i < offset
          ensures line[i] == ' '
        {
          assert aligned[i] == ' ';
          if i < |longer| {
            assert longer[i] != ' ';
          }
        }
      }
      assert '|' !in line[..offset];
    } else {
      BarsCountMatches(longer, shorter, offset, n - 1);
      assert line[..offset + n] == line[..offset + n - 1] + [line[offset + n - 1]];
      assert aligned[offset + n - 1] == shorter[n - 1];
    }
  }

  /** When `longer` contains no space, the bars of the match line count the
      reported score; the one exception is two empty strings, where the
      score stays -1 and there are no bars. */
  lemma BarsCountScore(seq1: string, seq2: string)
    requires ' ' !in BestAlignment(seq1, seq2).longer
    ensures var res := BestAlignment(seq1, seq2);
      multiset(res.mid)['|'] == if |res.longer| == 0 then 0 else res.score
  {
    var res := BestAlignment(seq1, seq2);
    BarsCountMatches(res.longer, res.shorter, res.offset, |res.shorter|);
    assert res.mid[..res.offset + |res.shorter|] == res.mid;
  }
}

=== FILE: cfexercises.dfy ===
/** Control-flow exercises: the larger of two numbers, sorting three, and
    factorial written with a for loop, with recursion and with a while loop
    (week1/code/cfexercises1.py). */
module ControlFlow {
  import opened Results

  /** `foo_2(x, y)`: `x if x > y else y`. */
  function Larger(x: real, y: real): (m: real)
    ensures m >= x && m >= y
    ensures m == x || m == y
  {
    if x > y then x else y
  }

  /** One conditional swap of `foo_3` on the variables held as positions
      of `s`: exchanges `s[i]` and `s[j]` when `s[i] > s[j]`. */
  function OrderAt(s: seq<real>, i: nat, j: nat): (r: seq<real>)
    requires i < j < |s|
    ensures |r| == |s|
    ensures r[i] <= r[j]
    ensures r[i] <= s[i]
    ensures forall k :: 0 <= k < |s| && k != i && k != j ==> r[k] == s[k]
    ensures multiset(r) == multiset(s)
  {
    if s[i] > s[j] then s[i := s[j]][j := s[i]] else s
  }

  /** `foo_3(x, y, z)`: swaps `x, y`, then `x, z`, then `y, z` into order;
      the list it returns is sorted and holds the same three numbers. */
  function SortThree(x: real, y: real, z: real): (r: seq<real>)
    ensures |r| == 3
    ensures r[0] <= r[1] <= r[2]
    ensures multiset(r) == multiset([x, y, z])
  {
    OrderAt(OrderAt(OrderAt([x, y, z], 0, 1), 0, 2), 1, 2)
  }

  /** The product of a list of integers; 1 for the empty list. */
  function Product(xs: seq<int>): int
  {
    if |xs| == 0 then 1 else Product(xs[..|xs| - 1]) * xs[|xs| - 1]
  }

  /** `[1, 2, ..., n]`. */
  function OneTo(n: nat): seq<int>
  {
    seq(n, i => i + 1)
  }

  /** The reference definition: `n!` is the product `1 * 2 * ... * n`. */
  function Factorial(n: nat): int
  {
    Product(OneTo(n))
  }

  /** `(n+1)! = n! * (n+1)`, and `0! = 1`. */
  lemma FactorialStep(n: nat)
    ensures Factorial(0) == 1
    ensures Factorial(n + 1) == Factorial(n) * (n + 1)
  {
    assert OneTo(n + 1)[..n] == OneTo(n);
  }

  /** Every factorial is positive. */
  lemma {:induction false} FactorialPositive(n: nat)
    ensures Factorial(n) >= 1
  {
    if n > 0 {
      FactorialPositive(n - 1);
      FactorialStep(n - 1);
    }
  }

  /** One step of the recursion: `n * (n-1)! = n!`, and it is positive. */
  lemma FactorialUnfold(n: nat, prev: int)
    requires n > 0 && prev == Factorial(n - 1)
    ensures n * prev == Factorial(n) >= 1
  {
    FactorialStep(n - 1);
    FactorialPositive(n);
  }

  /** `foo_5(n)`: raises ValueError for `n < 0`, returns 1 for `n` in
      `(0, 1)`, and `n * foo_5(n - 1)` otherwise. */
  function FactorialRecursive(n: int): (res: Result<int>)
    ensures n < 0 ==> res == Err(ValueError)
    ensures n >= 0 ==> res == Ok(Factorial(n))
    ensures res.Ok? ==> res.value >= 1
    decreases if n < 0 then 0 else n
  {
    if n < 0 then Err(ValueError)
    else if n == 0 || n == 1 then
      FactorialStep(0);
      Ok(1)
    else
      var prev := FactorialRecursive(n - 1).value;
      FactorialUnfold(n, prev);
      Ok(n * prev)
  }

  /** `foo_4(n)`: multiplies `out` by `i` for `i` in `range(1, n + 1)`. */
  method FactorialFor(n: int) returns (res: Result<int>)
    ensures n < 0 ==> res == Err(ValueError)
    ensures n >= 0 ==> res == Ok(Factorial(n))
    ensures res == FactorialRecursive(n)
  {
    if n < 0 {
      return Err(ValueError);
    }
    var out := 1;
    var i := 1;
    FactorialStep(0);
    while i < n + 1
      invariant 1 <= i <= n + 1
      invariant out == Factorial(i - 1)
    {
      FactorialStep(i - 1);
      out := out * i;
      i := i + 1;
    }
    return Ok(out);
  }

  /** `foo_6(n)`: multiplies `out` by `n` and counts `n` down to 0. */
  method FactorialWhile(n: int) returns (res: Result<int>)
    ensures n < 0 ==> res == Err(ValueError)
    ensures n >= 0 ==> res == Ok(Factorial(n))
    ensures res == FactorialRecursive(n)
  {
    if n < 0 {
      return Err(ValueError);
    }
    var out := 1;
    var m := n;
    FactorialStep(0);
    while m >= 1
      invariant 0 <= m <= n
      invariant out * Factorial(m) == Factorial(n)
    {
      FactorialStep(m - 1);
      assert out * Factorial(m) == (out * m) * Factorial(m - 1);
      out := out * m;
      m := m - 1;
    }
    return Ok(out);
  }
}

=== FILE: dictionary.dfy ===
/** Common dictionary patterns over string keys and integer values
    (week1/code/dictionary.py). */
module DictionaryPatterns {
  import opened Sequences
  import opened Dicts

  /** `count_tokens`: one `cnt[t] += 1` per token on a `defaultdict(int)`. */
  function CountTokens(tokens: seq<string>): (cnt: Dict<string, int>)
    ensures Valid(cnt)
    ensures forall t :: t in cnt.entries <==> t in tokens
    ensures forall t :: t in cnt.entries ==> cnt.entries[t] == multiset(tokens)[t] >= 1
    ensures Total(cnt, Value) == |tokens|
  {
    if |tokens| == 0 then Empty()
    else
      var init, t := tokens[..|tokens| - 1], tokens[|tokens| - 1];
      assert tokens == init + [t];
      var prev := CountTokens(init);
      var cnt := Put(prev, t, Get(prev, t, 0) + 1);
      CountStep(tokens, init, t, prev, cnt);
      cnt
  }

  /** One `cnt[t] += 1` takes the counts of `init` to the counts of
      `tokens = init + [t]`. */
  lemma CountStep(tokens: seq<string>, init: seq<string>, t: string, prev: Dict<string, int>,
                  cnt: Dict<string, int>)
    requires tokens == init + [t]
    requires Valid(prev)
    requires forall u :: u in prev.entries <==> u in init
    requires forall u :: u in prev.entries ==> prev.entries[u] == multiset(init)[u] >= 1
    requires Total(prev, Value) == |init|
    requires cnt == Put(prev, t, Get(prev, t, 0) + 1)
    ensures forall u :: u in cnt.entries <==> u in tokens
    ensures forall u :: u in cnt.entries ==> cnt.entries[u] == multiset(tokens)[u] >= 1
    ensures Total(cnt, Value) == |tokens|
  {
    CountOneMore(tokens, init, t, prev, cnt);
    TotalIncrement(prev, t);
  }

  /** Counting the last token `t` of `tokens` on top of the counts of the
      others, `init`, gives each token of `tokens` its count. */
  lemma CountOneMore(tokens: seq<string>, init: seq<string>, t: string, prev: Dict<string, int>,
                     cnt: Dict<string, int>)
    requires tokens == init + [t]
    requires forall u :: u in prev.entries <==> u in init
    requires forall u :: u in prev.entries ==> prev.entries[u] == multiset(init)[u] >= 1
    requires cnt == Put(prev, t, Get(prev, t, 0) + 1)
    ensures forall u :: u in cnt.entries <==> u in tokens
    ensures forall u :: u in cnt.entries ==> cnt.entries[u] == multiset(tokens)[u] >= 1
  {
    var c := Get(prev, t, 0);
    assert cnt.entries == prev.entries[t := c + 1];
    assert multiset(tokens) == multiset(init) + multiset{t};
    assert c == multiset(init)[t];
    forall u
      ensures u in cnt.entries <==> u in tokens
      ensures u in cnt.entries ==> cnt.entries[u] == multiset(tokens)[u] >= 1
    {
      assert u in tokens <==> u in init || u == t;
    }
  }

  /** `list_of_tuples_to_dict`: `{k: v for k, v in pairs}`. The keys are the
      first components and each key keeps the value of its last pair. */
  function ListOfTuplesToDict(pairs: seq<(string, int)>): (d: Dict<string, int>)
    ensures Valid(d)
    ensures forall k :: k in d.entries <==> exists i :: 0 <= i < |pairs| && pairs[i].0 == k
    ensures forall i :: LastOccurrence(pairs, i) ==> pairs[i].0 in d.entries && d.entries[pairs[i].0] == pairs[i].1
  {
    var d := FromPairs(pairs);
    FromPairsSpec(pairs);
    d
  }

  /** `merge_sum` after the first `n` keys of `d2` have been folded into a
      copy of `d1`. */
  function MergePrefix(d1: Dict<string, int>, d2: Dict<string, int>, n: nat): (out: Dict<string, int>)
    requires Valid(d1) && Valid(d2) && n <= |d2.keys|
    ensures Valid(out)
    ensures |out.keys| >= |d1.keys| && out.keys[..|d1.keys|] == d1.keys
  {
    if n == 0 then d1
    else
      var prev := MergePrefix(d1, d2, n - 1);
      var k := d2.keys[n - 1];
      assert prev.keys[..|d1.keys|] == d1.keys;
      Put(prev, k, Get(prev, k, 0) + d2.entries[k])
  }

  /** After `n` keys of `d2`, a key is present when it was in `d1` or among
      those `n`, and holds the sum of the values seen for it. */
  lemma {:induction false} MergePrefixEntries(d1: Dict<string, int>, d2: Dict<string, int>, n: nat, k: string)
    requires Valid(d1) && Valid(d2) && n <= |d2.keys|
    ensures k in MergePrefix(d1, d2, n).entries <==> k in d1.entries || k in d2.keys[..n]
    ensures Get(MergePrefix(d1, d2, n), k, 0) == Get(d1, k, 0) + (if k in d2.keys[..n] then d2.entries[k] else 0)
  {
    if n > 0 {
      var last := d2.keys[n - 1];
      assert d2.keys[..n] == d2.keys[..n - 1] + [last];
      MergePrefixEntries(d1, d2, n - 1, k);
      if k == last {
        assert k !in d2.keys[..n - 1];
      }
    }
  }

  /** `merge_sum(d1, d2)`: the keys of either, each mapped to the sum of its
      values with 0 for a missing side. `d1`'s keys keep their order at the
      front; an empty `d2` gives back `d1` itself. */
  function MergeSum(d1: Dict<string, int>, d2: Dict<string, int>): (out: Dict<string, int>)
    requires Valid(d1) && Valid(d2)
    ensures Valid(out)
    ensures |out.keys| >= |d1.keys| && out.keys[..|d1.keys|] == d1.keys
    ensures forall k :: k in out.entries <==> k in d1.entries || k in d2.entries
    ensures forall k :: Get(out, k, 0) == Get(d1, k, 0) + Get(d2, k, 0)
    ensures |d2.keys| == 0 ==> out == d1
  {
    assert d2.keys[..|d2.keys|] == d2.keys;
    MergeSumEntries(d1, d2);
    MergePrefix(d1, d2, |d2.keys|)
  }

  lemma MergeSumEntries(d1: Dict<string, int>, d2: Dict<string, int>)
    requires Valid(d1) && Valid(d2)
    ensures forall k :: k in MergePrefix(d1, d2, |d2.keys|).entries <==> k in d1.entries || k in d2.entries
    ensures forall k :: Get(MergePrefix(d1, d2, |d2.keys|), k, 0) == Get(d1, k, 0) + Get(d2, k, 0)
  {
    var out := MergePrefix(d1, d2, |d2.keys|);
    assert d2.keys[..|d2.keys|] == d2.keys;
    forall k
      ensures k in out.entries <==> k in d1.entries || k in d2.entries
      ensures Get(out, k, 0) == Get(d1, k, 0) + Get(d2, k, 0)
    {
      MergePrefixEntries(d1, d2, |d2.keys|, k);
      assert k in d2.keys <==> k in d2.entries;
    }
  }

  /** Python's ordering of strings: code point by code point, a proper
      prefix before any extension of it. */
  predicate StrLess(a: string, b: string)
  {
    if |a| == 0 then |b| > 0
    else if |b| == 0 then false
    else if a[0] != b[0] then a[0] < b[0]
    else StrLess(a[1..], b[1..])
  }

  lemma {:induction false} StrLessTransitive(a: string, b: string, c: string)
    requires StrLess(a, b) && StrLess(b, c)
    ensures StrLess(a, c)
  {
    if |a| > 0 && a[0] == b[0] && b[0] == c[0] {
      StrLessTransitive(a[1..], b[1..], c[1..]);
    }
  }

  lemma {:induction false} StrLessTotal(a: string, b: string)
    requires a != b
    ensures StrLess(a, b) || StrLess(b, a)
  {
    if |a| > 0 && |b| > 0 && a[0] == b[0] {
      assert a == [a[0]] + a[1..] && b == [b[0]] + b[1..];
      StrLessTotal(a[1..], b[1..]);
    }
  }

  /** The sort key `(value, key)` of `dict_to_sorted_items`, compared as
      Python compares tuples. */
  predicate ItemLess(x: (string, int), y: (string, int))
  {
    x.1 < y.1 || (x.1 == y.1 && StrLess(x.0, y.0))
  }

  lemma ItemLessTransitive(x: (string, int), y: (string, int), z: (string, int))
    requires ItemLess(x, y) && ItemLess(y, z)
    ensures ItemLess(x, z)
  {
    if x.1 == y.1 == z.1 {
      StrLessTransitive(x.0, y.0, z.0);
    }
  }

  lemma ItemLessTotal(x: (string, int), y: (string, int))
    requires x != y
    ensures ItemLess(x, y) || ItemLess(y, x)
  {
    if x.1 == y.1 {
      StrLessTotal(x.0, y.0);
    }
  }

  /** Each item is strictly below the next one. */
  predicate SortedItems(xs: seq<(string, int)>)
  {
    forall i :: 0 <= i < |xs| - 1 ==> ItemLess(xs[i], xs[i + 1])
  }

  /** Consecutive order is order between any two positions. */
  lemma {:induction false} SortedItemsPairwise(xs: seq<(string, int)>, i: nat, j: nat)
    requires SortedItems(xs) && i < j < |xs|
    ensures ItemLess(xs[i], xs[j])
    decreases j - i
  {
    if i + 1 < j {
      SortedItemsPairwise(xs, i + 1, j);
      ItemLessTransitive(xs[i], xs[i + 1], xs[j]);
    }
  }

  /** Inserts `x` into sorted `ys` before the first element above it. */
  function Insert(x: (string, int), ys: seq<(string, int)>): (r: seq<(string, int)>)
    ensures multiset(r) == multiset(ys) + multiset{x}
    ensures |ys| > 0 ==> r[0] == x || r[0] == ys[0]
    ensures SortedItems(ys) && x !in ys ==> SortedItems(r)
  {
    if |ys| == 0 then [x]
    else if ItemLess(x, ys[0]) then [x] + ys
    else
      assert ys == [ys[0]] + ys[1..];
      var rest := Insert(x, ys[1..]);
      assert SortedItems(ys) && x !in ys ==> SortedItems([ys[0]] + rest) by {
        if SortedItems(ys) && x !in ys {
          ItemLessTotal(x, ys[0]);
          assert SortedItems(ys[1..]) && x !in ys[1..];
          assert ItemLess(ys[0], rest[0]);
        }
      }
      [ys[0]] + rest
  }

  /** Sorts by insertion, last element first. */
  function Sort(xs: seq<(string, int)>): (r: seq<(string, int)>)
    ensures multiset(r) == multiset(xs)
    ensures Distinct(xs) ==> SortedItems(r)
  {
    if |xs| == 0 then []
    else
      assert xs == [xs[0]] + xs[1..];
      var rest := Sort(xs[1..]);
      assert xs[0] in multiset(rest) <==> xs[0] in xs[1..];
      Insert(xs[0], rest)
  }

  /** `d.items()`: the pairs in insertion order. */
  function Items(d: Dict<string, int>): (items: seq<(string, int)>)
    requires Valid(d)
    ensures |items| == |d.keys|
    ensures Distinct(items)
    ensures forall k, v :: (k, v) in items <==> k in d.entries && d.entries[k] == v
  {
    var items := seq(|d.keys|, i requires 0 <= i < |d.keys| => (d.keys[i], d.entries[d.keys[i]]));
    assert forall k, v :: k in d.entries && d.entries[k] == v ==> (k, v) in items by {
      forall k, v | k in d.entries && d.entries[k] == v
        ensures (k, v) in items
      {
        var i :| 0 <= i < |d.keys| && d.keys[i] == k;
        assert items[i] == (k, v);
      }
    }
    items
  }

  /** `dict_to_sorted_items(d)`: the items of `d`, each exactly once, in
      strictly increasing `(value, key)` order. */
  function DictToSortedItems(d: Dict<string, int>): (r: seq<(string, int)>)
    requires Valid(d)
    ensures multiset(r) == multiset(Items(d))
    ensures |r| == |d.keys|
    ensures forall k, v :: (k, v) in r <==> k in d.entries && d.entries[k] == v
    ensures forall i, j :: 0 <= i < j < |r| ==> ItemLess(r[i], r[j])
  {
    var r := Sort(Items(d));
    assert |r| == |multiset(r)|;
    forall k, v
      ensures (k, v) in r <==> (k, v) in Items(d)
    {
      assert (k, v) in multiset(r) <==> (k, v) in multiset(Items(d));
    }
    forall i, j | 0 <= i < j < |r|
      ensures ItemLess(r[i], r[j])
    {
      SortedItemsPairwise(r, i, j);
    }
    r
  }
}

=== FILE: dicts.dfy ===
/** Python dictionaries: a map together with the order in which its keys
    were first inserted, which is the order `items()` and iteration use. */
module Dicts {
  import opened Sequences

  datatype Dict<K, V> = Dict(keys: seq<K>, entries: map<K, V>)

  /** The insertion order lists every key exactly once. */
  predicate Valid<K, V>(d: Dict<K, V>)
  {
    && Distinct(d.keys)
    && (forall k :: k in d.entries ==> k in d.keys)
    && (forall i :: 0 <= i < |d.keys| ==> d.keys[i] in d.entries)
  }

  function Empty<K, V>(): (d: Dict<K, V>)
    ensures Valid(d) && |d.keys| == 0
  {
    Dict([], map[])
  }

  /** `d.get(k, default)`. */
  function Get<K, V>(d: Dict<K, V>, k: K, default: V): V
  {
    if k in d.entries then d.entries[k] else default
  }

  /** `d[k] = v`: a new key goes to the end of the order, an existing key
      keeps its place. */
  function Put<K, V>(d: Dict<K, V>, k: K, v: V): (r: Dict<K, V>)
    ensures Valid(d) ==> Valid(r)
    ensures |r.keys| == |d.keys| + (if k in d.entries then 0 else 1)
    ensures r.keys[..|d.keys|] == d.keys
  {
    if k in d.entries then Dict(d.keys, d.entries[k := v])
    else Dict(d.keys + [k], d.entries[k := v])
  }

  /** Reading back after a store sees the stored value at that key and the
      old value everywhere else. */
  lemma GetPut<K, V>(d: Dict<K, V>, k: K, v: V, k': K, default: V)
    ensures Get(Put(d, k, v), k', default) == if k' == k then v else Get(d, k', default)
  {
  }

  /** The sum of `weight` over the values at `keys`, in that order. */
  function TotalOver<K, V>(keys: seq<K>, m: map<K, V>, weight: V -> int): int
    requires forall i :: 0 <= i < |keys| ==> keys[i] in m
  {
    if |keys| == 0 then 0
    else TotalOver(keys[..|keys| - 1], m, weight) + weight(m[keys[|keys| - 1]])
  }

  /** The sum of `weight` over all values of the dictionary. */
  function Total<K, V>(d: Dict<K, V>, weight: V -> int): int
    requires Valid(d)
  {
    TotalOver(d.keys, d.entries, weight)
  }

  lemma {:induction false} TotalOverFresh<K, V>(keys: seq<K>, m: map<K, V>, k: K, v: V, weight: V -> int)
    requires forall i :: 0 <= i < |keys| ==> keys[i] in m
    requires k !in keys
    ensures TotalOver(keys, m[k := v], weight) == TotalOver(keys, m, weight)
  {
    if |keys| > 0 {
      TotalOverFresh(keys[..|keys| - 1], m, k, v, weight);
    }
  }

  lemma {:induction false} TotalOverReplace<K, V>(keys: seq<K>, m: map<K, V>, k: K, v: V, weight: V -> int)
    requires forall i :: 0 <= i < |keys| ==> keys[i] in m
    requires Distinct(keys) && k in keys
    ensures TotalOver(keys, m[k := v], weight) == TotalOver(keys, m, weight) - weight(m[k]) + weight(v)
  {
    var init, last := keys[..|keys| - 1], keys[|keys| - 1];
    assert keys == init + [last];
    if last == k {
      assert k !in init;
      TotalOverFresh(init, m, k, v, weight);
    } else {
      assert Distinct(init);
      TotalOverReplace(init, m, k, v, weight);
    }
  }

  /** A store changes the total by the new value's weight less the weight
      of the value it replaces, if any. */
  lemma TotalPut<K, V>(d: Dict<K, V>, k: K, v: V, weight: V -> int)
    requires Valid(d)
    ensures Valid(Put(d, k, v))
    ensures Total(Put(d, k, v), weight)
         == Total(d, weight) - (if k in d.entries then weight(d.entries[k]) else 0) + weight(v)
  {
    if k in d.entries {
      TotalOverReplace(d.keys, d.entries, k, v, weight);
    } else {
      var r := Put(d, k, v);
      assert r.keys[..|d.keys|] == d.keys;
      TotalOverFresh(d.keys, d.entries, k, v, weight);
    }
  }

  /** The weight under which `Total` adds up the values themselves. */
  function Value(n: int): int { n }

  /** `d[k] += 1` on a `defaultdict(int)` adds one to the sum of the values. */
  lemma TotalIncrement<K>(d: Dict<K, int>, k: K)
    requires Valid(d)
    ensures Total(Put(d, k, Get(d, k, 0) + 1), Value) == Total(d, Value) + 1
  {
    TotalPut(d, k, Get(d, k, 0) + 1, Value);
    assert (if k in d.entries then Value(d.entries[k]) else 0) == Get(d, k, 0);
  }

  /** A dictionary built from `(key, value)` pairs in order, as by
      `{k: v for k, v in pairs}` or `dict(pairs)`. */
  function FromPairs<K, V>(pairs: seq<(K, V)>): Dict<K, V>
  {
    if |pairs| == 0 then Empty()
    else Put(FromPairs(pairs[..|pairs| - 1]), pairs[|pairs| - 1].0, pairs[|pairs| - 1].1)
  }

  lemma {:induction false} FromPairsValid<K, V>(pairs: seq<(K, V)>)
    ensures Valid(FromPairs(pairs))
  {
    if |pairs| > 0 {
      FromPairsValid(pairs[..|pairs| - 1]);
    }
  }

  /** Position `i` holds the last pair whose key is `pairs[i].0`. */
  ghost predicate LastOccurrence<K, V>(pairs: seq<(K, V)>, i: int)
  {
    0 <= i < |pairs| && forall j :: i < j < |pairs| ==> pairs[j].0 != pairs[i].0
  }

  /** A key is in `FromPairs(pairs)` exactly when some pair has it. */
  lemma {:induction false} FromPairsKey<K, V>(pairs: seq<(K, V)>, k: K)
    ensures k in FromPairs(pairs).entries <==> exists i :: 0 <= i < |pairs| && pairs[i].0 == k
  {
    if |pairs| > 0 {
      var init := pairs[..|pairs| - 1];
      FromPairsKey(init, k);
      var last := pairs[|pairs| - 1];
      assert FromPairs(pairs) == Put(FromPairs(init), last.0, last.1);
      assert k in FromPairs(pairs).entries <==> k in FromPairs(init).entries || k == last.0;
      if k in FromPairs(init).entries {
        var i :| 0 <= i < |init| && init[i].0 == k;
        assert pairs[i].0 == k;
      }
      if exists i :: 0 <= i < |pairs| && pairs[i].0 == k {
        var i :| 0 <= i < |pairs| && pairs[i].0 == k;
        if i < |init| {
          assert init[i].0 == k;
        }
      }
    }
  }

  /** Each key of `FromPairs(pairs)` holds the value of its LAST pair. */
  lemma {:induction false} FromPairsLastWins<K, V>(pairs: seq<(K, V)>, i: nat)
    requires LastOccurrence(pairs, i)
    ensures pairs[i].0 in FromPairs(pairs).entries
    ensures FromPairs(pairs).entries[pairs[i].0] == pairs[i].1
  {
    var init := pairs[..|pairs| - 1];
    if i < |init| {
      assert init[i] == pairs[i];
      assert forall j :: i < j < |init| ==> init[j] == pairs[j];
      assert LastOccurrence(init, i);
      FromPairsLastWins(init, i);
    }
  }

  /** The pair holding the last occurrence of a key wins, and every key is
      present: together, what `dict(pairs)` promises. */
  lemma FromPairsSpec<K(!new), V>(pairs: seq<(K, V)>)
    ensures Valid(FromPairs(pairs))
    ensures forall k :: k in FromPairs(pairs).entries <==> exists i :: 0 <= i < |pairs| && pairs[i].0 == k
    ensures forall i :: LastOccurrence(pairs, i)
              ==> pairs[i].0 in FromPairs(pairs).entries && FromPairs(pairs).entries[pairs[i].0] == pairs[i].1
  {
    FromPairsValid(pairs);
    forall k {
      FromPairsKey(pairs, k);
    }
    forall i | LastOccurrence(pairs, i) {
      FromPairsLastWins(pairs, i);
    }
  }

  /** When every pair's value is computed from its key, so is every value of
      the dictionary. */
  lemma {:induction false} FromPairsOfFunction<K, V>(pairs: seq<(K, V)>, f: K -> V)
    requires forall i :: 0 <= i < |pairs| ==> pairs[i].1 == f(pairs[i].0)
    ensures forall k :: k in FromPairs(pairs).entries ==> FromPairs(pairs).entries[k] == f(k)
  {
    if |pairs| > 0 {
      var init := pairs[..|pairs| - 1];
      assert forall i :: 0 <= i < |init| ==> init[i] == pairs[i];
      FromPairsOfFunction(init, f);
    }
  }
}

=== FILE: lc1.dfy ===
/** Loops and list comprehensions over integers and strings
    (week1/code/lc1.py). */
module ListComprehensions {
  import opened Sequences

  /** The length of `range(n)`: empty for `n <= 0`. */
  function RangeLength(n: int): nat
  {
    if n <= 0 then 0 else n
  }

  /** `squares_comp(n)`: `[i*i for i in range(n)]`. */
  function SquaresComp(n: int): (sq: seq<int>)
    ensures |sq| == RangeLength(n)
    ensures forall i :: 0 <= i < |sq| ==> sq[i] == i * i
    ensures StrictlyIncreasing(sq)
  {
    var sq := seq(RangeLength(n), i => i * i);
    forall i, j | 0 <= i < j < |sq|
      ensures sq[i] < sq[j]
    {
      SquareMonotone(i, j);
    }
    sq
  }

  lemma SquareMonotone(i: nat, j: nat)
    requires i < j
    ensures i * i < j * j
  {
    assert i * i <= i * j < j * j;
  }

  /** `squares_loop(n)`: appends `i*i` for each `i` in `range(n)`; builds
      the same list as the comprehension. */
  method SquaresLoop(n: int) returns (out: seq<int>)
    ensures out == SquaresComp(n)
  {
    out := [];
    var i := 0;
    while i < n
      invariant 0 <= i <= RangeLength(n)
      invariant out == SquaresComp(i)
    {
      out := out + [i * i];
      i := i + 1;
    }
  }

  predicate IsEven(x: int)
  {
    x % 2 == 0
  }

  /** `evens_comp(xs)`: `[x for x in xs if x % 2 == 0]`. Python's `%` and
      Dafny's agree on the remainder modulo 2 for negative `x` too. */
  function Evens(xs: seq<int>): (ev: seq<int>)
    ensures forall i :: 0 <= i < |ev| ==> ev[i] % 2 == 0
    ensures forall x :: multiset(ev)[x] == if x % 2 == 0 then multiset(xs)[x] else 0
    ensures IsSubsequence(ev, xs)
  {
    FilterCounts(xs, IsEven);
    FilterIsSubsequence(xs, IsEven);
    Filter(xs, IsEven)
  }

  /** `lens_comp(names)`: `[len(s) for s in names]`. */
  function Lengths<T>(names: seq<seq<T>>): (ls: seq<int>)
    ensures |ls| == |names|
    ensures forall i :: 0 <= i < |names| ==> ls[i] == |names[i]|
  {
    seq(|names|, i requires 0 <= i < |names| => |names[i]|)
  }

  /** `flatten_pairs_comp(ps)`: `[item for p in ps for item in p]`. */
  function Flatten<T>(ps: seq<seq<T>>): seq<T>
  {
    if |ps| == 0 then [] else Flatten(ps[..|ps| - 1]) + ps[|ps| - 1]
  }

  /** The flattened list is as long as the inner lists together. */
  lemma {:induction false} FlattenLength<T>(ps: seq<seq<T>>)
    ensures |Flatten(ps)| == Sum(Lengths(ps))
  {
    if |ps| > 0 {
      var init := ps[..|ps| - 1];
      FlattenLength(init);
      assert Lengths(ps)[..|ps| - 1] == Lengths(init);
    }
  }

  /** Flattening keeps the inner lists in order: it distributes over
      concatenation of the outer list. */
  lemma {:induction false} FlattenAppend<T>(ps: seq<seq<T>>, qs: seq<seq<T>>)
    ensures Flatten(ps + qs) == Flatten(ps) + Flatten(qs)
    decreases |qs|
  {
    if |qs| == 0 {
      assert ps + qs == ps;
    } else {
      var init, last := qs[..|qs| - 1], qs[|qs| - 1];
      var pq := ps + qs;
      assert pq[..|pq| - 1] == ps + init;
      assert pq[|pq| - 1] == last;
      FlattenAppend(ps, init);
      calc {
        Flatten(pq);
        Flatten(ps + init) + last;
        Flatten(ps) + Flatten(init) + last;
        Flatten(ps) + Flatten(qs);
      }
    }
  }

  /** An element is in the flattened list exactly when it is in one of the
      inner lists. */
  lemma {:induction false} FlattenMembers<T>(ps: seq<seq<T>>, x: T)
    ensures x in Flatten(ps) <==> exists i :: 0 <= i < |ps| && x in ps[i]
  {
    if |ps| > 0 {
      var init := ps[..|ps| - 1];
      FlattenMembers(init, x);
      if exists i :: 0 <= i < |init| && x in init[i] {
        var i :| 0 <= i < |init| && x in init[i];
        assert ps[i] == init[i];
      }
      if exists i :: 0 <= i < |ps| && x in ps[i] {
        var i :| 0 <= i < |ps| && x in ps[i];
        if i < |init| {
          assert init[i] == ps[i];
        }
      }
    }
  }

  /** Inserts `x` into the strictly increasing `ys` unless it is already
      there. */
  function InsertUnique(ys: seq<int>, x: int): (r: seq<int>)
    ensures forall e :: e in r <==> e in ys || e == x
    ensures |r| > 0
    ensures |ys| > 0 ==> r[0] == x || r[0] == ys[0]
    ensures StrictlyIncreasing(ys) ==> StrictlyIncreasing(r)
  {
    if |ys| == 0 then [x]
    else if x < ys[0] then [x] + ys
    else if x == ys[0] then ys
    else [ys[0]] + InsertUnique(ys[1..], x)
  }

  /** `unique_sorted_comp(xs)`: `sorted({x for x in xs})`. */
  function UniqueSorted(xs: seq<int>): (r: seq<int>)
    ensures StrictlyIncreasing(r)
    ensures forall e :: e in r <==> e in xs
  {
    if |xs| == 0 then []
    else
      var init := xs[..|xs| - 1];
      assert xs == init + [xs[|xs| - 1]];
      InsertUnique(UniqueSorted(init), xs[|xs| - 1])
  }

  /** There is only one strictly increasing list of a given set of
      elements. */
  lemma {:induction false} StrictlyIncreasingUnique(a: seq<int>, b: seq<int>)
    requires StrictlyIncreasing(a) && StrictlyIncreasing(b)
    requires forall e :: e in a <==> e in b
    ensures a == b
  {
    if |a| > 0 {
      assert a[0] in a;
      assert a[0] in b;
    }
    if |b| > 0 {
      assert b[0] in b;
      assert b[0] in a;
    }
    if |a| > 0 && |b| > 0 {
      assert a[0] == b[0] by {
        var i :| 0 <= i < |b| && b[i] == a[0];
        var j :| 0 <= j < |a| && a[j] == b[0];
        assert b[0] <= a[0] && a[0] <= b[0];
      }
      forall e
        ensures e in a[1..] <==> e in b[1..]
      {
        if e in a[1..] {
          assert e in b && e != b[0];
        }
        if e in b[1..] {
          assert e in a && e != a[0];
        }
      }
      StrictlyIncreasingUnique(a[1..], b[1..]);
      assert a == [a[0]] + a[1..] && b == [b[0]] + b[1..];
    }
  }

  /** `unique_sorted_comp` is the only strictly increasing list with the
      elements of its input. */
  lemma UniqueSortedCharacterization(xs: seq<int>, ys: seq<int>)
    requires StrictlyIncreasing(ys) && forall e :: e in ys <==> e in xs
    ensures UniqueSorted(xs) == ys
  {
    StrictlyIncreasingUnique(UniqueSorted(xs), ys);
  }

  /** Applying `unique_sorted_comp` to its own output changes nothing. */
  lemma UniqueSortedIdempotent(xs: seq<int>)
    ensures UniqueSorted(UniqueSorted(xs)) == UniqueSorted(xs)
  {
    UniqueSortedCharacterization(UniqueSorted(xs), UniqueSorted(xs));
  }

  /** The documented example: `[3, 1, 2, 3, 2]` gives `[1, 2, 3]`. */
  lemma UniqueSortedExample()
    ensures UniqueSorted([3, 1, 2, 3, 2]) == [1, 2, 3]
  {
    UniqueSortedCharacterization([3, 1, 2, 3, 2], [1, 2, 3]);
  }
}

=== FILE: lc2.dfy ===
/** Dictionary and set comprehensions over words and integers
    (week1/code/lc2.py). */
module MoreComprehensions {
  import opened Sequences
  import opened Dicts

  function WordLength(w: string): int { |w| }

  /** `word_lengths(words)`: `{w: len(w) for w in words}`. */
  function WordLengths(words: seq<string>): (d: Dict<string, int>)
    ensures Valid(d)
    ensures forall w :: w in d.entries <==> w in words
    ensures forall w :: w in d.entries ==> d.entries[w] == |w|
  {
    var pairs := seq(|words|, i requires 0 <= i < |words| => (words[i], |words[i]|));
    FromPairsValid(pairs);
    FromPairsOfFunction(pairs, WordLength);
    forall w
      ensures w in FromPairs(pairs).entries <==> w in words
    {
      FromPairsKey(pairs, w);
      if w in words {
        var i :| 0 <= i < |words| && words[i] == w;
        assert pairs[i].0 == w;
      }
    }
    FromPairs(pairs)
  }

  /** `ch.lower()` on ASCII letters; every other character is left alone,
      and none of those lowers to an ASCII vowel. */
  function Lower(c: char): char
  {
    if 'A' <= c <= 'Z' then (c as int + 32) as char else c
  }

  /** `ch.lower() in "aeiou"`. */
  predicate IsVowel(c: char)
  {
    var l := Lower(c);
    l == 'a' || l == 'e' || l == 'i' || l == 'o' || l == 'u'
  }

  /** `vowels_only(s)`: `[ch for ch in s if ch.lower() in "aeiou"]`. */
  function VowelsOnly(s: string): (vs: seq<char>)
    ensures forall i :: 0 <= i < |vs| ==> IsVowel(vs[i])
    ensures forall c :: multiset(vs)[c] == if IsVowel(c) then multiset(s)[c] else 0
    ensures IsSubsequence(vs, s)
  {
    FilterCounts(s, IsVowel);
    FilterIsSubsequence(s, IsVowel);
    Filter(s, IsVowel)
  }

  /** The documented example: `vowels_only('MulQuaBio')` is `u, u, a, i, o`. */
  lemma VowelsOnlyExample()
    ensures VowelsOnly("MulQuaBio") == "uuaio"
  {
    VowelsOfMulQuaBio("MulQuaBio");
  }

  lemma VowelsOfMulQuaBio(s: string)
    requires |s| == 9
    requires s[0] == 'M' && s[1] == 'u' && s[2] == 'l' && s[3] == 'Q' && s[4] == 'u'
    requires s[5] == 'a' && s[6] == 'B' && s[7] == 'i' && s[8] == 'o'
    ensures Filter(s, IsVowel) == "uuaio"
  {
    assert Filter(s[..0], IsVowel) == [];
    FilterPrefix(s, 0, IsVowel);
    assert Filter(s[..1], IsVowel) == [];
    FilterPrefix(s, 1, IsVowel);
    assert Filter(s[..2], IsVowel) == ['u'];
    FilterPrefix(s, 2, IsVowel);
    assert Filter(s[..3], IsVowel) == ['u'];
    FilterPrefix(s, 3, IsVowel);
    assert Filter(s[..4], IsVowel) == ['u'];
    FilterPrefix(s, 4, IsVowel);
    assert Filter(s[..5], IsVowel) == ['u', 'u'];
    FilterPrefix(s, 5, IsVowel);
    assert Filter(s[..6], IsVowel) == ['u', 'u', 'a'];
    FilterPrefix(s, 6, IsVowel);
    assert Filter(s[..7], IsVowel) == ['u', 'u', 'a'];
    FilterPrefix(s, 7, IsVowel);
    assert Filter(s[..8], IsVowel) == ['u', 'u', 'a', 'i'];
    FilterPrefix(s, 8, IsVowel);
    assert Filter(s[..9], IsVowel) == ['u', 'u', 'a', 'i', 'o'];
    assert s[..9] == s;
  }

  /** `cartesian_comp(a, b)`: `[(x, y) for x in a for y in b]`, one row of
      pairs per element of `a`. */
  function Cartesian(a: seq<int>, b: seq<int>): (ps: seq<(int, int)>)
    ensures |ps| == |a| * |b|
    ensures forall p :: p in ps <==> p.0 in a && p.1 in b
  {
    if |a| == 0 then []
    else
      var init, x := a[..|a| - 1], a[|a| - 1];
      assert a == init + [x];
      var row := seq(|b|, j requires 0 <= j < |b| => (x, b[j]));
      assert forall p: (int, int) :: p in row <==> p.0 == x && p.1 in b by {
        forall p: (int, int) | p.0 == x && p.1 in b
          ensures p in row
        {
          var j :| 0 <= j < |b| && b[j] == p.1;
          assert row[j] == p;
        }
      }
      Cartesian(init, b) + row
  }

  lemma RowMajorBound(i: nat, j: nat, m: nat, n: nat)
    requires i < m && j < n
    ensures i * n + j < m * n
  {
    assert (i + 1) * n <= m * n;
  }

  /** Element `i*|b| + j` of the product is `(a[i], b[j])`. */
  lemma {:induction false} CartesianAt(a: seq<int>, b: seq<int>, i: nat, j: nat)
    requires i < |a| && j < |b|
    ensures i * |b| + j < |Cartesian(a, b)|
    ensures Cartesian(a, b)[i * |b| + j] == (a[i], b[j])
  {
    RowMajorBound(i, j, |a|, |b|);
    var init := a[..|a| - 1];
    if i < |init| {
      CartesianAt(init, b, i, j);
      assert a[i] == init[i];
    } else {
      assert i * |b| == |Cartesian(init, b)|;
    }
  }

  /** The keys of `d` whose value is `v`. */
  function HasValue(d: Dict<string, int>, v: int): string -> bool
  {
    k => k in d.entries && d.entries[k] == v
  }

  function ListLength(ks: seq<string>): int { |ks| }

  /** The number of keys the lists of an inversion hold between them. */
  function KeyCount(inv: Dict<int, seq<string>>): int
    requires Valid(inv)
  {
    Total(inv, ListLength)
  }

  /** `invert_dict` after the first `n` items of `d`:
      `inv.setdefault(v, []).append(k)` for each. */
  function InvertPrefix(d: Dict<string, int>, n: nat): Dict<int, seq<string>>
    requires Valid(d) && n <= |d.keys|
  {
    if n == 0 then Empty()
    else
      var prev := InvertPrefix(d, n - 1);
      var k := d.keys[n - 1];
      var v := d.entries[k];
      Put(prev, v, Get(prev, v, []) + [k])
  }

  /** After `n` items, each value seen so far lists the keys holding it among
      those items, in order. */
  lemma {:induction false} InvertPrefixLists(d: Dict<string, int>, n: nat, v: int)
    requires Valid(d) && n <= |d.keys|
    ensures v in InvertPrefix(d, n).entries <==> |Filter(d.keys[..n], HasValue(d, v))| > 0
    ensures Get(InvertPrefix(d, n), v, []) == Filter(d.keys[..n], HasValue(d, v))
  {
    if n > 0 {
      var prev := InvertPrefix(d, n - 1);
      var k := d.keys[n - 1];
      var w := d.entries[k];
      var ks := Get(prev, w, []) + [k];
      assert InvertPrefix(d, n) == Put(prev, w, ks);
      InvertPrefixLists(d, n - 1, v);
      FilterPrefix(d.keys, n - 1, HasValue(d, v));
      GetPut(prev, w, ks, v, []);
      assert HasValue(d, v)(k) <==> w == v;
    }
  }

  /** Appending one key to the list of `v` adds one to the total length. */
  lemma AppendKeyTotal(inv: Dict<int, seq<string>>, v: int, k: string)
    requires Valid(inv)
    ensures Valid(Put(inv, v, Get(inv, v, []) + [k]))
    ensures Total(Put(inv, v, Get(inv, v, []) + [k]), ListLength) == Total(inv, ListLength) + 1
  {
    var ks := Get(inv, v, []);
    TotalPut(inv, v, ks + [k], ListLength);
    assert ListLength(ks + [k]) == ListLength(ks) + 1;
    assert (if v in inv.entries then ListLength(inv.entries[v]) else 0) == ListLength(ks);
  }

  /** Before any item, the inversion is empty and its lists hold no key. */
  lemma InvertStartTotal(d: Dict<string, int>)
    requires Valid(d)
    ensures Valid(InvertPrefix(d, 0))
    ensures KeyCount(InvertPrefix(d, 0)) == 0
  {
    assert InvertPrefix(d, 0) == Empty();
  }

  /** Item `m` adds one key to the lists and keeps the inversion well formed. */
  lemma InvertStepTotal(d: Dict<string, int>, m: nat)
    requires Valid(d) && m < |d.keys|
    requires Valid(InvertPrefix(d, m)) && KeyCount(InvertPrefix(d, m)) == m
    ensures Valid(InvertPrefix(d, m + 1))
    ensures KeyCount(InvertPrefix(d, m + 1)) == m + 1
  {
    var prev := InvertPrefix(d, m);
    var k := d.keys[m];
    var v := d.entries[k];
    assert InvertPrefix(d, m + 1) == Put(prev, v, Get(prev, v, []) + [k]);
    AppendKeyTotal(prev, v, k);
  }

  /** After `n` items, the lists hold `n` keys between them. */
  lemma {:induction false} InvertPrefixTotal(d: Dict<string, int>, n: nat)
    requires Valid(d) && n <= |d.keys|
    ensures Valid(InvertPrefix(d, n))
    ensures KeyCount(InvertPrefix(d, n)) == n
  {
    if n == 0 {
      InvertStartTotal(d);
    } else {
      InvertPrefixTotal(d, n - 1);
      InvertStepTotal(d, n - 1);
    }
  }

  /** What the finished inversion holds for one value `v`. */
  lemma InvertEntry(d: Dict<string, int>, v: int)
    requires Valid(d)
    ensures v in InvertPrefix(d, |d.keys|).entries <==> exists k :: k in d.entries && d.entries[k] == v
    ensures v in InvertPrefix(d, |d.keys|).entries ==>
              InvertPrefix(d, |d.keys|).entries[v] == Filter(d.keys, HasValue(d, v))
  {
    assert d.keys[..|d.keys|] == d.keys;
    InvertPrefixLists(d, |d.keys|, v);
    FilterMembers(d.keys, HasValue(d, v));
    var ks := Filter(d.keys, HasValue(d, v));
    if |ks| > 0 {
      assert ks[0] in ks;
    }
    if exists k :: k in d.entries && d.entries[k] == v {
      var k :| k in d.entries && d.entries[k] == v;
      assert k in ks;
    }
  }

  /** `invert_dict(d)`: each value of `d` mapped to the list of keys holding
      it, in `d`'s order, without repeats; the lists hold every key of `d`
      exactly once between them. */
  function InvertDict(d: Dict<string, int>): (inv: Dict<int, seq<string>>)
    requires Valid(d)
    ensures Valid(inv)
    ensures forall v :: v in inv.entries <==> exists k :: k in d.entries && d.entries[k] == v
    ensures forall v :: v in inv.entries ==> inv.entries[v] == Filter(d.keys, HasValue(d, v))
    ensures forall v, k :: v in inv.entries ==> (k in inv.entries[v] <==> k in d.entries && d.entries[k] == v)
    ensures forall v :: v in inv.entries ==> Distinct(inv.entries[v])
    ensures Total(inv, ListLength) == |d.keys|
  {
    var inv := InvertPrefix(d, |d.keys|);
    InvertPrefixTotal(d, |d.keys|);
    forall v | v in inv.entries
      ensures inv.entries[v] == Filter(d.keys, HasValue(d, v))
      ensures forall k :: k in inv.entries[v] <==> k in d.entries && d.entries[k] == v
      ensures Distinct(inv.entries[v])
    {
      InvertEntry(d, v);
      FilterMembers(d.keys, HasValue(d, v));
      FilterDistinct(d.keys, HasValue(d, v));
    }
    forall v
      ensures v in inv.entries <==> exists k :: k in d.entries && d.entries[k] == v
    {
      InvertEntry(d, v);
    }
    inv
  }
}

=== FILE: lv2.dfy ===
/** The continuous prey/predator model with carrying capacity, advanced by
    fixed-step forward Euler with clamping (week1/code/LV2.py, `simulate`). */
module EulerLV {
  import opened Results
  import opened Population

  /** Python's `int()` on a float: truncation toward zero. */
  function Trunc(x: real): (n: int)
    ensures x >= 0.0 ==> 0 <= n && n as real <= x < n as real + 1.0
    ensures x < 0.0 ==> n <= 0 && n as real - 1.0 < x <= n as real
  {
    if x >= 0.0 then x.Floor else -((-x).Floor)
  }

  /** `n = int(tmax / dt) + 1`. */
  function SampleCount(tmax: real, dt: real): int
    requires dt != 0.0
  {
    Trunc(tmax / dt) + 1
  }

  /** `np.linspace(0.0, stop, n)`: `n` evenly spaced points from 0 to `stop`
      inclusive; a single point is 0. */
  function Linspace(stop: real, n: nat): (ts: seq<real>)
    ensures |ts| == n
    ensures n >= 1 ==> ts[0] == 0.0
    ensures n >= 2 ==> ts[n - 1] == stop
    ensures n >= 2 ==> forall i :: 0 <= i < n - 1 ==> ts[i + 1] - ts[i] == stop / (n - 1) as real
  {
    if n == 1 then [0.0]
    else
      var h := if n == 0 then 0.0 else stop / (n - 1) as real;
      seq(n, i => if i == n - 1 then stop else i as real * h)
  }

  /** One Euler step of length `dt` from the old state, each density clamped
      at zero. */
  function EulerStep(p: Params, dt: real, s: State): (next: State)
    requires p.K != 0.0
    ensures NonNegative(next)
    ensures PreyExtinct(s) ==> PreyExtinct(next)
    ensures ConsumerExtinct(s) ==> ConsumerExtinct(next)
  {
    var dR := p.r * s.R * (1.0 - s.R / p.K) - p.a * s.C * s.R;
    var dC := -p.z * s.C + p.e * p.a * s.C * s.R;
    State(Clamp(s.R + dR * dt), Clamp(s.C + dC * dt))
  }

  /** The scheme as a step function: every step has length `dt`. */
  function Euler(p: Params, dt: real): (nat, State) -> State
    requires p.K != 0.0
  {
    (_, s) => EulerStep(p, dt, s)
  }

  /** The state reached from `s0` after `i` steps. */
  function StateAfter(p: Params, dt: real, s0: State, i: nat): (s: State)
    requires p.K != 0.0
    ensures i >= 1 || NonNegative(s0) ==> NonNegative(s)
  {
    Iterate(Euler(p, dt), s0, i)
  }

  /** Each state is one Euler step on from the one before. */
  lemma StateAfterStep(p: Params, dt: real, s0: State, i: nat)
    requires p.K != 0.0
    ensures StateAfter(p, dt, s0, i + 1) == EulerStep(p, dt, StateAfter(p, dt, s0, i))
  {
  }

  /** `simulate(r, a, z, e, K, tmax, dt, R0, C0)`. Dividing by `dt = 0`
      raises ZeroDivisionError; a negative sample count makes `linspace`
      raise ValueError; zero samples make the store into `R[0]` raise
      IndexError. */
  function Simulate(p: Params, tmax: real, dt: real, R0: real, C0: real): (res: Result<Trajectory<real>>)
    requires p.K != 0.0
    ensures dt == 0.0 ==> res == Err(ZeroDivisionError)
    ensures dt != 0.0 && SampleCount(tmax, dt) < 0 ==> res == Err(ValueError)
    ensures dt != 0.0 && SampleCount(tmax, dt) == 0 ==> res == Err(IndexError)
    ensures res.Ok? <==> dt != 0.0 && SampleCount(tmax, dt) >= 1
    ensures res.Ok? ==> HasSamples(res.value, SampleCount(tmax, dt))
    ensures res.Ok? ==> res.value.t == Linspace(tmax, SampleCount(tmax, dt))
    ensures res.Ok? ==> res.value.R[0] == R0 && res.value.C[0] == C0
  {
    if dt == 0.0 then Err(ZeroDivisionError)
    else
      var n := SampleCount(tmax, dt);
      if n < 0 then Err(ValueError)
      else if n == 0 then Err(IndexError)
      else
        var s0 := State(R0, C0);
        Ok(Trajectory(Linspace(tmax, n),
                      seq(n, i requires 0 <= i => StateAfter(p, dt, s0, i).R),
                      seq(n, i requires 0 <= i => StateAfter(p, dt, s0, i).C)))
  }

  /** The loop of `simulate` over preallocated arrays, proved to build the
      same trajectory as the Euler recurrence. */
  method SimulateLoop(p: Params, tmax: real, dt: real, R0: real, C0: real) returns (res: Result<Trajectory<real>>)
    requires p.K != 0.0
    ensures res == Simulate(p, tmax, dt, R0, C0)
  {
    if dt == 0.0 {
      return Err(ZeroDivisionError);
    }
    var n := Trunc(tmax / dt) + 1;
    if n < 0 {
      return Err(ValueError);
    }
    var t := Linspace(tmax, n);
    if n == 0 {
      return Err(IndexError);
    }
    var R := seq(n, _ => 0.0);
    var C := seq(n, _ => 0.0);
    R, C := R[0 := R0], C[0 := C0];
    ghost var s0 := State(R0, C0);
    var i := 0;
    while i < n - 1
      invariant 0 <= i <= n - 1
      invariant |R| == n && |C| == n
      invariant forall j :: 0 <= j <= i ==> State(R[j], C[j]) == StateAfter(p, dt, s0, j)
    {
      StateAfterStep(p, dt, s0, i);
      var next := EulerStep(p, dt, State(R[i], C[i]));
      R, C := R[i + 1 := next.R], C[i + 1 := next.C];
      i := i + 1;
    }
    assert R == Simulate(p, tmax, dt, R0, C0).value.R;
    assert C == Simulate(p, tmax, dt, R0, C0).value.C;
    res := Ok(Trajectory(t, R, C));
  }

  /** For a non-negative horizon and a positive step the run succeeds with
      `floor(tmax / dt) + 1` samples, the last time being `tmax` whenever
      there are at least two. */
  lemma SampleCountIsFloor(p: Params, tmax: real, dt: real, R0: real, C0: real)
    requires p.K != 0.0
    requires tmax >= 0.0 && dt > 0.0
    ensures SampleCount(tmax, dt) == (tmax / dt).Floor + 1 >= 1
    ensures var res := Simulate(p, tmax, dt, R0, C0);
      && res.Ok?
      && res.value.t[0] == 0.0
      && (SampleCount(tmax, dt) >= 2 ==> res.value.t[SampleCount(tmax, dt) - 1] == tmax)
  {
    assert tmax / dt >= 0.0;
  }

  /** Doubling the step with a fixed non-negative horizon halves the number
      of samples, give or take one. */
  lemma DoublingStepHalvesSamples(tmax: real, dt: real)
    requires tmax >= 0.0 && dt > 0.0
    ensures var n1, n2 := SampleCount(tmax, dt), SampleCount(tmax, 2.0 * dt);
      n1 == 2 * n2 - 1 || n1 == 2 * n2
  {
    var x := tmax / dt;
    assert x >= 0.0;
    assert tmax / (2.0 * dt) == x / 2.0;
    var f := x.Floor;
    var g := (x / 2.0).Floor;
    assert g as real <= x / 2.0 < g as real + 1.0;
    assert f as real <= x < f as real + 1.0;
    assert 2 * g <= f <= 2 * g + 1;
  }

  /** Every sample after the first is the Euler update applied to the sample
      before it. */
  lemma StepRule(p: Params, tmax: real, dt: real, R0: real, C0: real, i: nat)
    requires p.K != 0.0
    requires Simulate(p, tmax, dt, R0, C0).Ok?
    requires i + 1 < SampleCount(tmax, dt)
    ensures var tr := Simulate(p, tmax, dt, R0, C0).value;
      At(tr, i + 1) == EulerStep(p, dt, At(tr, i))
  {
    var tr := Simulate(p, tmax, dt, R0, C0).value;
    assert At(tr, i) == StateAfter(p, dt, State(R0, C0), i);
    StateAfterStep(p, dt, State(R0, C0), i);
  }

  /** Every sample after the first is non-negative, and so is the first when
      the initial densities are. */
  lemma NonNegativeSamples(p: Params, tmax: real, dt: real, R0: real, C0: real)
    requires p.K != 0.0
    requires Simulate(p, tmax, dt, R0, C0).Ok?
    ensures var tr := Simulate(p, tmax, dt, R0, C0).value;
      forall i :: 0 <= i < |tr.R| && (i >= 1 || (R0 >= 0.0 && C0 >= 0.0)) ==> tr.R[i] >= 0.0 && tr.C[i] >= 0.0
  {
  }

  /** Once a density is exactly zero it stays zero at every later step. */
  lemma ExtinctionIsPermanent(p: Params, dt: real, s0: State, i: nat, j: nat)
    requires p.K != 0.0
    requires i <= j
    ensures PreyExtinct(StateAfter(p, dt, s0, i)) ==> PreyExtinct(StateAfter(p, dt, s0, j))
    ensures ConsumerExtinct(StateAfter(p, dt, s0, i)) ==> ConsumerExtinct(StateAfter(p, dt, s0, j))
  {
    if PreyExtinct(StateAfter(p, dt, s0, i)) {
      IterateKeeps(Euler(p, dt), PreyExtinct, s0, i, j);
    }
    if ConsumerExtinct(StateAfter(p, dt, s0, i)) {
      IterateKeeps(Euler(p, dt), ConsumerExtinct, s0, i, j);
    }
  }

  /** Sticky extinction stated on the returned arrays. */
  lemma TrajectoryExtinction(p: Params, tmax: real, dt: real, R0: real, C0: real)
    requires p.K != 0.0
    requires Simulate(p, tmax, dt, R0, C0).Ok?
    ensures var tr := Simulate(p, tmax, dt, R0, C0).value;
      && (forall i, j :: 0 <= i <= j < |tr.R| && tr.R[i] == 0.0 ==> tr.R[j] == 0.0)
      && (forall i, j :: 0 <= i <= j < |tr.C| && tr.C[i] == 0.0 ==> tr.C[j] == 0.0)
  {
    forall i, j | 0 <= i <= j < SampleCount(tmax, dt) {
      ExtinctionIsPermanent(p, dt, State(R0, C0), i, j);
    }
  }
}

=== FILE: lv3.dfy ===
/** The discrete-time prey/predator recurrence with carrying capacity
    (week1/code/LV3.py, `simulate`). */
module DiscreteLV {
  import opened Results
  import opened Population

  /** One step of the recurrence, each density clamped at zero. The consumer
      update reads the prey density of the same (old) state. */
  function Step(p: Params, s: State): (next: State)
    requires p.K != 0.0
    ensures NonNegative(next)
    ensures PreyExtinct(s) ==> PreyExtinct(next)
    ensures ConsumerExtinct(s) ==> ConsumerExtinct(next)
  {
    State(Clamp(s.R * (1.0 + p.r * (1.0 - s.R / p.K) - p.a * s.C)),
          Clamp(s.C * (1.0 - p.z + p.e * p.a * s.R)))
  }

  /** The recurrence as a step function: every step uses the same rates. */
  function Recurrence(p: Params): (nat, State) -> State
    requires p.K != 0.0
  {
    (_, s) => Step(p, s)
  }

  /** The state reached from `s0` after `i` steps. */
  function StateAfter(p: Params, s0: State, i: nat): (s: State)
    requires p.K != 0.0
    ensures i >= 1 || NonNegative(s0) ==> NonNegative(s)
  {
    Iterate(Recurrence(p), s0, i)
  }

  /** Each state is one step on from the one before. */
  lemma StateAfterStep(p: Params, s0: State, i: nat)
    requires p.K != 0.0
    ensures StateAfter(p, s0, i + 1) == Step(p, StateAfter(p, s0, i))
  {
  }

  /** `simulate(r, a, z, e, K, tmax, R0, C0)`: `n = tmax + 1` samples at the
      integer times `0 .. tmax`. A negative array size raises ValueError, and
      an empty array makes the store into `R[0]` raise IndexError. */
  function Simulate(p: Params, tmax: int, R0: real, C0: real): (res: Result<Trajectory<int>>)
    requires p.K != 0.0
    ensures res.Ok? <==> tmax >= 0
    ensures tmax < -1 ==> res == Err(ValueError)
    ensures tmax == -1 ==> res == Err(IndexError)
    ensures res.Ok? ==> HasSamples(res.value, tmax + 1)
    ensures res.Ok? ==> forall i :: 0 <= i <= tmax ==> res.value.t[i] == i
    ensures res.Ok? ==> res.value.R[0] == R0 && res.value.C[0] == C0
  {
    var n := tmax + 1;
    if n < 0 then Err(ValueError)
    else if n == 0 then Err(IndexError)
    else
      var s0 := State(R0, C0);
      Ok(Trajectory(seq(n, i => i),
                    seq(n, i requires 0 <= i => StateAfter(p, s0, i).R),
                    seq(n, i requires 0 <= i => StateAfter(p, s0, i).C)))
  }

  /** The loop of `simulate` over preallocated arrays, proved to build the
      same trajectory as the recurrence. */
  method SimulateLoop(p: Params, tmax: int, R0: real, C0: real) returns (res: Result<Trajectory<int>>)
    requires p.K != 0.0
    ensures res == Simulate(p, tmax, R0, C0)
  {
    var n := tmax + 1;
    if n < 0 {
      return Err(ValueError);
    }
    if n == 0 {
      return Err(IndexError);
    }
    var t := seq(n, i => i);
    var R := seq(n, _ => 0.0);
    var C := seq(n, _ => 0.0);
    R, C := R[0 := R0], C[0 := C0];
    ghost var s0 := State(R0, C0);
    var i := 0;
    while i < n - 1
      invariant 0 <= i <= n - 1
      invariant |R| == n && |C| == n
      invariant forall j :: 0 <= j <= i ==> State(R[j], C[j]) == StateAfter(p, s0, j)
    {
      StateAfterStep(p, s0, i);
      var next := Step(p, State(R[i], C[i]));
      R, C := R[i + 1 := next.R], C[i + 1 := next.C];
      i := i + 1;
    }
    assert R == Simulate(p, tmax, R0, C0).value.R;
    assert C == Simulate(p, tmax, R0, C0).value.C;
    res := Ok(Trajectory(t, R, C));
  }

  /** Every sample after the first is the update rule applied to the sample
      before it. */
  lemma StepRule(p: Params, tmax: int, R0: real, C0: real, i: nat)
    requires p.K != 0.0
    requires 0 <= i < tmax
    ensures var tr := Simulate(p, tmax, R0, C0).value;
      At(tr, i + 1) == Step(p, At(tr, i))
  {
    var tr := Simulate(p, tmax, R0, C0).value;
    assert At(tr, i) == StateAfter(p, State(R0, C0), i);
    StateAfterStep(p, State(R0, C0), i);
  }

  /** Every sample after the first is non-negative whatever the parameters,
      and so is the first when the initial densities are. */
  lemma NonNegativeSamples(p: Params, tmax: int, R0: real, C0: real)
    requires p.K != 0.0
    requires tmax >= 0
    ensures var tr := Simulate(p, tmax, R0, C0).value;
      forall i :: 0 <= i <= tmax && (i >= 1 || (R0 >= 0.0 && C0 >= 0.0)) ==> tr.R[i] >= 0.0 && tr.C[i] >= 0.0
  {
  }

  /** Once a density is exactly zero it stays zero at every later step. */
  lemma ExtinctionIsPermanent(p: Params, s0: State, i: nat, j: nat)
    requires p.K != 0.0
    requires i <= j
    ensures PreyExtinct(StateAfter(p, s0, i)) ==> PreyExtinct(StateAfter(p, s0, j))
    ensures ConsumerExtinct(StateAfter(p, s0, i)) ==> ConsumerExtinct(StateAfter(p, s0, j))
  {
    if PreyExtinct(StateAfter(p, s0, i)) {
      IterateKeeps(Recurrence(p), PreyExtinct, s0, i, j);
    }
    if ConsumerExtinct(StateAfter(p, s0, i)) {
      IterateKeeps(Recurrence(p), ConsumerExtinct, s0, i, j);
    }
  }

  /** Sticky extinction stated on the returned arrays. */
  lemma TrajectoryExtinction(p: Params, tmax: int, R0: real, C0: real)
    requires p.K != 0.0
    requires tmax >= 0
    ensures var tr := Simulate(p, tmax, R0, C0).value;
      && (forall i, j :: 0 <= i <= j <= tmax && tr.R[i] == 0.0 ==> tr.R[j] == 0.0)
      && (forall i, j :: 0 <= i <= j <= tmax && tr.C[i] == 0.0 ==> tr.C[j] == 0.0)
  {
    forall i, j | 0 <= i <= j <= tmax {
      ExtinctionIsPermanent(p, State(R0, C0), i, j);
    }
  }
}

=== FILE: lv4.dfy ===
/** The discrete-time recurrence perturbed by Gaussian noise on the growth
    rate and, optionally, on consumer mortality (week1/code/LV4.py,
    `simulate`). The seeded generator is replaced by its output: `draws(k)`
    is the k-th standard-normal value it yields, and numpy's
    `normal(0.0, sigma)` returns `0.0 + sigma * draws(k)`. */
module StochasticLV {
  import opened Results
  import opened Population
  import DiscreteLV

  /** Draws consumed by `steps` steps: one per step for `r`, a second one per
      step for `z` when `both` is set. */
  function DrawCount(both: bool, steps: nat): nat {
    if both then 2 * steps else steps
  }

  /** The rates step `i` uses: `rr = r + eps_r` with eps_r from draw number
      `DrawCount(both, i)` and, when `both` is set, `zz = max(z + eps_z, 0)`
      with eps_z from the draw right after it. `a`, `e` and `K` are untouched. */
  function RatesAt(p: Params, sigma: real, both: bool, draws: nat -> real, i: nat): (q: Params)
    ensures q.a == p.a && q.e == p.e && q.K == p.K
    ensures both ==> q.z >= 0.0
    ensures !both ==> q.z == p.z
  {
    var k := DrawCount(both, i);
    p.(r := p.r + (0.0 + sigma * draws(k)),
       z := if both then Clamp(p.z + (0.0 + sigma * draws(k + 1))) else p.z)
  }

  /** The noisy recurrence as a step function: the discrete update with the
      perturbed rates of that step. */
  function NoisyRecurrence(p: Params, sigma: real, both: bool, draws: nat -> real): (nat, State) -> State
    requires p.K != 0.0
  {
    (k: nat, s: State) => DiscreteLV.Step(RatesAt(p, sigma, both, draws, k), s)
  }

  /** The state after `i` noisy steps from `s0`. */
  function StateAfter(p: Params, sigma: real, both: bool, draws: nat -> real, s0: State, i: nat): (s: State)
    requires p.K != 0.0
    ensures i >= 1 || NonNegative(s0) ==> NonNegative(s)
  {
    Iterate(NoisyRecurrence(p, sigma, both, draws), s0, i)
  }

  /** Each state is one perturbed step on from the one before. */
  lemma StateAfterStep(p: Params, sigma: real, both: bool, draws: nat -> real, s0: State, i: nat)
    requires p.K != 0.0
    ensures StateAfter(p, sigma, both, draws, s0, i + 1)
         == DiscreteLV.Step(RatesAt(p, sigma, both, draws, i), StateAfter(p, sigma, both, draws, s0, i))
  {
  }

  /** `simulate(r, a, z, e, K, tmax, R0, C0, sigma, both, seed)` with the
      seeded generator replaced by `draws`. A negative array size raises
      ValueError, an empty array IndexError, and numpy rejects a negative
      scale with ValueError at the first draw, which is made only when at
      least one step is taken. */
  function Simulate(p: Params, sigma: real, both: bool, tmax: int, R0: real, C0: real,
                    draws: nat -> real): (res: Result<Trajectory<int>>)
    requires p.K != 0.0
    ensures res.Ok? <==> tmax == 0 || (tmax >= 1 && sigma >= 0.0)
    ensures tmax < -1 ==> res == Err(ValueError)
    ensures tmax == -1 ==> res == Err(IndexError)
    ensures tmax >= 1 && sigma < 0.0 ==> res == Err(ValueError)
    ensures res.Ok? ==> HasSamples(res.value, tmax + 1)
    ensures res.Ok? ==> forall i :: 0 <= i <= tmax ==> res.value.t[i] == i
    ensures res.Ok? ==> res.value.R[0] == R0 && res.value.C[0] == C0
  {
    var n := tmax + 1;
    if n < 0 then Err(ValueError)
    else if n == 0 then Err(IndexError)
    else if n > 1 && sigma < 0.0 then Err(ValueError)
    else
      var s0 := State(R0, C0);
      Ok(Trajectory(seq(n, i => i),
                    seq(n, i requires 0 <= i => StateAfter(p, sigma, both, draws, s0, i).R),
                    seq(n, i requires 0 <= i => StateAfter(p, sigma, both, draws, s0, i).C)))
  }

  /** The loop of `simulate`, reading the generator in order through a
      cursor; it also returns how many draws it consumed. */
  method SimulateLoop(p: Params, sigma: real, both: bool, tmax: int, R0: real, C0: real,
                      draws: nat -> real) returns (res: Result<Trajectory<int>>, consumed: nat)
    requires p.K != 0.0
    ensures res == Simulate(p, sigma, both, tmax, R0, C0, draws)
    ensures consumed == if res.Ok? then DrawCount(both, tmax) else 0
  {
    consumed := 0;
    var n := tmax + 1;
    if n < 0 {
      return Err(ValueError), 0;
    }
    if n == 0 {
      return Err(IndexError), 0;
    }
    if n > 1 && sigma < 0.0 {
      return Err(ValueError), 0;
    }
    var t := seq(n, i => i);
    var R := seq(n, _ => 0.0);
    var C := seq(n, _ => 0.0);
    R, C := R[0 := R0], C[0 := C0];
    ghost var s0 := State(R0, C0);
    var i := 0;
    while i < n - 1
      invariant 0 <= i <= n - 1
      invariant consumed == DrawCount(both, i)
      invariant |R| == n && |C| == n
      invariant forall j :: 0 <= j <= i ==> State(R[j], C[j]) == StateAfter(p, sigma, both, draws, s0, j)
    {
      var q;
      q, consumed := DrawRates(p, sigma, both, draws, consumed, i);
      StateAfterStep(p, sigma, both, draws, s0, i);
      var next := DiscreteLV.Step(q, State(R[i], C[i]));
      R, C := R[i + 1 := next.R], C[i + 1 := next.C];
      i := i + 1;
    }
    assert R == Simulate(p, sigma, both, tmax, R0, C0, draws).value.R;
    assert C == Simulate(p, sigma, both, tmax, R0, C0, draws).value.C;
    res := Ok(Trajectory(t, R, C));
  }

  /** The body of one loop iteration up to the update: `eps_r` is drawn
      first, then `eps_z` when `both` is set. Reading from position
      `DrawCount(both, i)` yields the rates of step `i` and leaves the cursor
      at the start of step `i + 1`. */
  method DrawRates(p: Params, sigma: real, both: bool, draws: nat -> real, cursor: nat, ghost i: nat)
    returns (q: Params, next: nat)
    requires cursor == DrawCount(both, i)
    ensures q == RatesAt(p, sigma, both, draws, i)
    ensures next == DrawCount(both, i + 1)
  {
    next := cursor;
    var epsR := 0.0 + sigma * draws(next);
    next := next + 1;
    var rr := p.r + epsR;
    var zz;
    if both {
      var epsZ := 0.0 + sigma * draws(next);
      next := next + 1;
      zz := Clamp(p.z + epsZ);
    } else {
      zz := p.z;
    }
    q := p.(r := rr, z := zz);
  }

  /** Only the draws the run consumes matter: two generators that agree on
      their first `DrawCount(both, n)` values give the same first `n + 1`
      states. */
  lemma OnlyConsumedDrawsMatter(p: Params, sigma: real, both: bool, s0: State,
                                d1: nat -> real, d2: nat -> real, n: nat)
    requires p.K != 0.0
    requires forall k :: 0 <= k < DrawCount(both, n) ==> d1(k) == d2(k)
    ensures forall i :: 0 <= i <= n ==>
      StateAfter(p, sigma, both, d1, s0, i) == StateAfter(p, sigma, both, d2, s0, i)
  {
    forall k: nat, s: State | k < n
      ensures NoisyRecurrence(p, sigma, both, d1)(k, s) == NoisyRecurrence(p, sigma, both, d2)(k, s)
    {
      var j := DrawCount(both, k);
      assert d1(j) == d2(j);
      assert both ==> d1(j + 1) == d2(j + 1);
      assert RatesAt(p, sigma, both, d1, k).r == RatesAt(p, sigma, both, d2, k).r;
      assert RatesAt(p, sigma, both, d1, k).z == RatesAt(p, sigma, both, d2, k).z;
      assert RatesAt(p, sigma, both, d1, k) == RatesAt(p, sigma, both, d2, k);
    }
    IterateAgree(NoisyRecurrence(p, sigma, both, d1), NoisyRecurrence(p, sigma, both, d2), s0, n);
  }

  /** Sticky extinction holds whatever the draws are. */
  lemma ExtinctionIsPermanent(p: Params, sigma: real, both: bool, draws: nat -> real,
                              s0: State, i: nat, j: nat)
    requires p.K != 0.0
    requires i <= j
    ensures PreyExtinct(StateAfter(p, sigma, both, draws, s0, i)) ==> PreyExtinct(StateAfter(p, sigma, both, draws, s0, j))
    ensures ConsumerExtinct(StateAfter(p, sigma, both, draws, s0, i)) ==> ConsumerExtinct(StateAfter(p, sigma, both, draws, s0, j))
  {
    var f := NoisyRecurrence(p, sigma, both, draws);
    if PreyExtinct(StateAfter(p, sigma, both, draws, s0, i)) {
      IterateKeeps(f, PreyExtinct, s0, i, j);
    }
    if ConsumerExtinct(StateAfter(p, sigma, both, draws, s0, i)) {
      IterateKeeps(f, ConsumerExtinct, s0, i, j);
    }
  }

  /** Every sample after the first is non-negative whatever the draws and the
      parameters are, and so is the first when the initial densities are. */
  lemma NonNegativeSamples(p: Params, sigma: real, both: bool, tmax: int, R0: real, C0: real, draws: nat -> real)
    requires p.K != 0.0
    requires Simulate(p, sigma, both, tmax, R0, C0, draws).Ok?
    ensures var tr := Simulate(p, sigma, both, tmax, R0, C0, draws).value;
      forall i :: 0 <= i <= tmax && (i >= 1 || (R0 >= 0.0 && C0 >= 0.0)) ==> tr.R[i] >= 0.0 && tr.C[i] >= 0.0
  {
  }

  /** Every sample after the first is the discrete update, with that step's
      perturbed rates, of the sample before it. */
  lemma StepRule(p: Params, sigma: real, both: bool, tmax: int, R0: real, C0: real,
                 draws: nat -> real, i: nat)
    requires p.K != 0.0
    requires Simulate(p, sigma, both, tmax, R0, C0, draws).Ok?
    requires i < tmax
    ensures var tr := Simulate(p, sigma, both, tmax, R0, C0, draws).value;
      At(tr, i + 1) == DiscreteLV.Step(RatesAt(p, sigma, both, draws, i), At(tr, i))
  {
    var tr := Simulate(p, sigma, both, tmax, R0, C0, draws).value;
    assert At(tr, i) == StateAfter(p, sigma, both, draws, State(R0, C0), i);
    StateAfterStep(p, sigma, both, draws, State(R0, C0), i);
  }

  /** Sticky extinction stated on the returned arrays. */
  lemma TrajectoryExtinction(p: Params, sigma: real, both: bool, tmax: int, R0: real, C0: real, draws: nat -> real)
    requires p.K != 0.0
    requires Simulate(p, sigma, both, tmax, R0, C0, draws).Ok?
    ensures var tr := Simulate(p, sigma, both, tmax, R0, C0, draws).value;
      && (forall i, j :: 0 <= i <= j <= tmax && tr.R[i] == 0.0 ==> tr.R[j] == 0.0)
      && (forall i, j :: 0 <= i <= j <= tmax && tr.C[i] == 0.0 ==> tr.C[j] == 0.0)
  {
    forall i, j | 0 <= i <= j <= tmax {
      ExtinctionIsPermanent(p, sigma, both, draws, State(R0, C0), i, j);
    }
  }

  /** The parameters the noiseless recurrence sees: with `both` set, the
      mortality still passes through the clamp `max(z + 0, 0)`. */
  function Noiseless(p: Params, both: bool): Params {
    if both then p.(z := Clamp(p.z)) else p
  }

  /** With every consumed perturbation zero, the noisy run is the discrete
      recurrence of week1/code/LV3.py. */
  lemma ZeroNoiseIsDiscrete(p: Params, sigma: real, both: bool, draws: nat -> real, s0: State, n: nat)
    requires p.K != 0.0
    requires forall k :: 0 <= k < DrawCount(both, n) ==> sigma * draws(k) == 0.0
    ensures forall i :: 0 <= i <= n ==>
      StateAfter(p, sigma, both, draws, s0, i) == DiscreteLV.StateAfter(Noiseless(p, both), s0, i)
  {
    forall k: nat, s: State | k < n
      ensures NoisyRecurrence(p, sigma, both, draws)(k, s) == DiscreteLV.Recurrence(Noiseless(p, both))(k, s)
    {
      var j := DrawCount(both, k);
      assert sigma * draws(j) == 0.0;
      assert both ==> sigma * draws(j + 1) == 0.0;
      assert RatesAt(p, sigma, both, draws, k) == Noiseless(p, both);
    }
    IterateAgree(NoisyRecurrence(p, sigma, both, draws), DiscreteLV.Recurrence(Noiseless(p, both)), s0, n);
  }

  /** With `sigma = 0` (and `z >= 0` when `both` is set) `simulate` returns
      exactly what the discrete scheme returns, error cases included. */
  lemma ZeroSigmaMatchesDiscrete(p: Params, both: bool, tmax: int, R0: real, C0: real, draws: nat -> real)
    requires p.K != 0.0
    requires both ==> p.z >= 0.0
    ensures Simulate(p, 0.0, both, tmax, R0, C0, draws) == DiscreteLV.Simulate(p, tmax, R0, C0)
  {
    if tmax >= 0 {
      assert Noiseless(p, both) == p;
      ZeroNoiseIsDiscrete(p, 0.0, both, draws, State(R0, C0), tmax);
      assert Simulate(p, 0.0, both, tmax, R0, C0, draws).value.R == DiscreteLV.Simulate(p, tmax, R0, C0).value.R;
      assert Simulate(p, 0.0, both, tmax, R0, C0, draws).value.C == DiscreteLV.Simulate(p, tmax, R0, C0).value.C;
    }
  }
}

=== FILE: population.dfy ===
/** The vocabulary shared by the population-dynamics schemes: the parameter
    record, the prey/predator state, the clamp to zero, the returned arrays
    and the step-by-step iteration every scheme is an instance of. */
module Population {

  /** Growth rate r, attack rate a, consumer mortality z, conversion
      efficiency e and carrying capacity K. */
  datatype Params = Params(r: real, a: real, z: real, e: real, K: real)

  /** Resource (prey) density R and consumer (predator) density C. */
  datatype State = State(R: real, C: real)

  /** The three arrays `t, R, C` a simulation returns; `T` is the type of the
      time axis (integer steps or real times). */
  datatype Trajectory<T> = Trajectory(t: seq<T>, R: seq<real>, C: seq<real>)

  /** Python's `max(x, 0.0)`: negative values become zero, others are kept. */
  function Clamp(x: real): (y: real)
    ensures y >= 0.0
    ensures x >= 0.0 ==> y == x
    ensures x < 0.0 ==> y == 0.0
  {
    if 0.0 > x then 0.0 else x
  }

  predicate NonNegative(s: State) {
    s.R >= 0.0 && s.C >= 0.0
  }

  predicate PreyExtinct(s: State) {
    s.R == 0.0
  }

  predicate ConsumerExtinct(s: State) {
    s.C == 0.0
  }

  /** All three arrays hold exactly `n` samples. */
  predicate HasSamples<T>(tr: Trajectory<T>, n: nat) {
    |tr.t| == n && |tr.R| == n && |tr.C| == n
  }

  /** The state stored at index `i` of a trajectory. */
  function At<T>(tr: Trajectory<T>, i: nat): State
    requires i < |tr.R| && i < |tr.C|
  {
    State(tr.R[i], tr.C[i])
  }

  /** The state after `i` steps from `s0`, where `step(k, s)` computes the
      state at index `k + 1` from the state `s` at index `k`. */
  function Iterate<S>(step: (nat, S) -> S, s0: S, i: nat): S {
    if i == 0 then s0 else step(i - 1, Iterate(step, s0, i - 1))
  }

  /** A property every step preserves, once it holds, holds from then on. */
  lemma {:induction false} IterateKeeps<S>(step: (nat, S) -> S, keep: S -> bool, s0: S, i: nat, j: nat)
    requires forall k: nat, s: S :: keep(s) ==> keep(step(k, s))
    requires i <= j && keep(Iterate(step, s0, i))
    ensures keep(Iterate(step, s0, j))
    decreases j
  {
    if i < j {
      IterateKeeps(step, keep, s0, i, j - 1);
    }
  }

  /** Two step functions that agree on the first `n` steps produce the same
      states up to index `n`. */
  lemma {:induction false} IterateAgree<S>(f: (nat, S) -> S, g: (nat, S) -> S, s0: S, n: nat)
    requires forall k: nat, s: S :: k < n ==> f(k, s) == g(k, s)
    ensures forall i: nat :: i <= n ==> Iterate(f, s0, i) == Iterate(g, s0, i)
  {
    if n > 0 {
      IterateAgree(f, g, s0, n - 1);
      assert Iterate(f, s0, n) == g(n - 1, Iterate(g, s0, n - 1));
    }
  }
}

=== FILE: results.dfy ===
/** Outcomes of the modelled Python functions: a value, or the exception the
    interpreter (or numpy) would raise instead. */
module Results {

  /** The exception kinds the modelled functions can raise. */
  datatype Exception =
    | ValueError         // bad argument value (negative size, negative scale, n < 0)
    | IndexError         // writing element 0 of an empty array
    | ZeroDivisionError  // Python float division by zero

  datatype Result<+T> = Ok(value: T) | Err(error: Exception)
}

=== FILE: sequences.dfy ===
/** Sequence notions shared by the list-comprehension and dictionary helpers:
    filtering, subsequences, duplicate-freedom, order and sums. */
module Sequences {

  /** `ys` can be obtained from `xs` by deleting elements, keeping the order
      of the rest (matched greedily from the back). */
  predicate IsSubsequence<T(==)>(ys: seq<T>, xs: seq<T>)
    decreases |xs|
  {
    if |ys| == 0 then true
    else if |xs| == 0 then false
    else if ys[|ys| - 1] == xs[|xs| - 1] then IsSubsequence(ys[..|ys| - 1], xs[..|xs| - 1])
    else IsSubsequence(ys, xs[..|xs| - 1])
  }

  /** No element occurs twice. */
  predicate Distinct<T(==)>(xs: seq<T>)
  {
    forall i, j :: 0 <= i < j < |xs| ==> xs[i] != xs[j]
  }

  predicate StrictlyIncreasing(xs: seq<int>)
  {
    forall i, j :: 0 <= i < j < |xs| ==> xs[i] < xs[j]
  }

  /** A comprehension with a condition, `[x for x in xs if keep(x)]`. */
  function Filter<T>(xs: seq<T>, keep: T -> bool): (ys: seq<T>)
    ensures |ys| <= |xs|
    ensures forall i :: 0 <= i < |ys| ==> keep(ys[i])
  {
    if |xs| == 0 then []
    else
      var rest := Filter(xs[..|xs| - 1], keep);
      var last := xs[|xs| - 1];
      if keep(last) then rest + [last] else rest
  }

  /** Filtering keeps exactly the occurrences of the elements that pass. */
  lemma {:induction false} FilterCounts<T>(xs: seq<T>, keep: T -> bool)
    ensures forall x :: multiset(Filter(xs, keep))[x] == if keep(x) then multiset(xs)[x] else 0
  {
    if |xs| > 0 {
      var init, last := xs[..|xs| - 1], xs[|xs| - 1];
      assert xs == init + [last];
      FilterCounts(init, keep);
    }
  }

  /** An element survives filtering exactly when it occurs and passes. */
  lemma FilterMembers<T>(xs: seq<T>, keep: T -> bool)
    ensures forall x :: x in Filter(xs, keep) <==> x in xs && keep(x)
  {
    FilterCounts(xs, keep);
    forall x
      ensures x in Filter(xs, keep) <==> x in xs && keep(x)
    {
      assert x in Filter(xs, keep) <==> x in multiset(Filter(xs, keep));
      assert x in xs <==> x in multiset(xs);
    }
  }

  /** Filtering deletes elements and keeps the order of the rest. */
  lemma {:induction false} FilterIsSubsequence<T>(xs: seq<T>, keep: T -> bool)
    ensures IsSubsequence(Filter(xs, keep), xs)
  {
    if |xs| > 0 {
      var init, last := xs[..|xs| - 1], xs[|xs| - 1];
      var rest := Filter(init, keep);
      FilterIsSubsequence(init, keep);
      if keep(last) {
        assert (rest + [last])[..|rest|] == rest;
      } else if |rest| > 0 {
        assert keep(rest[|rest| - 1]);
      }
    }
  }

  /** Filtering keeps a duplicate-free sequence duplicate-free. */
  lemma {:induction false} FilterDistinct<T>(xs: seq<T>, keep: T -> bool)
    requires Distinct(xs)
    ensures Distinct(Filter(xs, keep))
  {
    if |xs| > 0 {
      var init, last := xs[..|xs| - 1], xs[|xs| - 1];
      assert Distinct(init);
      FilterDistinct(init, keep);
      FilterMembers(init, keep);
      assert last !in init;
    }
  }

  /** Filtering one more element of `xs` appends it when it passes. */
  lemma FilterPrefix<T>(xs: seq<T>, k: nat, keep: T -> bool)
    requires k < |xs|
    ensures Filter(xs[..k + 1], keep) == Filter(xs[..k], keep) + (if keep(xs[k]) then [xs[k]] else [])
  {
    assert xs[..k + 1][..k] == xs[..k];
  }

  /** The sum of a sequence of integers. */
  function Sum(xs: seq<int>): int
  {
    if |xs| == 0 then 0 else Sum(xs[..|xs| - 1]) + xs[|xs| - 1]
  }
}

=== FILE: tuple.dfy ===
/** Tuple packing and unpacking, and tuples as dictionary keys
    (week1/code/tuple.py). */
module TupleBasics {
  import opened Dicts

  /** `swap(a, b)`: the pair in the other order. */
  function Swap<A, B>(a: A, b: B): (r: (B, A))
  {
    (b, a)
  }

  /** Swapping twice gives back the original pair. */
  lemma SwapInvolution<A, B>(a: A, b: B)
    ensures var (x, y) := Swap(a, b); Swap(x, y) == (a, b)
  {
  }

  /** The character of a decimal digit. */
  function DigitChar(d: nat): char
    requires d < 10
  {
    "0123456789"[d]
  }

  function DigitValue(c: char): nat
  {
    if '0' <= c <= '9' then (c - '0') as nat else 0
  }

  lemma DigitRoundTrip(d: nat)
    requires d < 10
    ensures DigitValue(DigitChar(d)) == d
  {
  }

  /** `str(n)` for `n >= 0`: the decimal numeral without leading zeros. */
  function Decimal(n: nat): (s: string)
    ensures |s| >= 1
    ensures forall i :: 0 <= i < |s| ==> '0' <= s[i] <= '9'
    ensures n >= 10 ==> s[0] != '0'
  {
    if n < 10 then [DigitChar(n)] else Decimal(n / 10) + [DigitChar(n % 10)]
  }

  /** The value of a numeral read left to right. */
  function ParseDecimal(s: string): nat
  {
    if |s| == 0 then 0 else ParseDecimal(s[..|s| - 1]) * 10 + DigitValue(s[|s| - 1])
  }

  /** Reading back a printed number gives the number: distinct indices get
      distinct labels. */
  lemma {:induction false} DecimalRoundTrip(n: nat)
    ensures ParseDecimal(Decimal(n)) == n
  {
    if n >= 10 {
      var q, d := n / 10, n % 10;
      DecimalRoundTrip(q);
      DigitRoundTrip(d);
      var s := Decimal(n);
      assert s == Decimal(q) + [DigitChar(d)];
      assert s[..|s| - 1] == Decimal(q);
      assert ParseDecimal(s) == q * 10 + d;
    } else {
      DigitRoundTrip(n);
      assert [DigitChar(n)][..0] == [];
    }
  }

  /** `enumerate(coords, 1)` turned into `(xy, f"{label}{i}")` pairs. */
  function Labelled(coords: seq<(int, int)>, tag: string): (pairs: seq<((int, int), string)>)
  {
    seq(|coords|, i requires 0 <= i < |coords| => (coords[i], tag + Decimal(i + 1)))
  }

  lemma LabelledKeys(coords: seq<(int, int)>, tag: string)
    ensures forall xy :: xy in FromPairs(Labelled(coords, tag)).entries <==> xy in coords
  {
    var pairs := Labelled(coords, tag);
    forall xy
      ensures xy in FromPairs(pairs).entries <==> xy in coords
    {
      FromPairsKey(pairs, xy);
      if xy in coords {
        var i :| 0 <= i < |coords| && coords[i] == xy;
        assert pairs[i].0 == xy;
      }
    }
  }

  lemma LabelledValue(coords: seq<(int, int)>, tag: string, i: nat)
    requires i < |coords|
    requires forall j :: i < j < |coords| ==> coords[j] != coords[i]
    ensures coords[i] in FromPairs(Labelled(coords, tag)).entries
    ensures FromPairs(Labelled(coords, tag)).entries[coords[i]] == tag + Decimal(i + 1)
  {
    var pairs := Labelled(coords, tag);
    assert pairs[i] == (coords[i], tag + Decimal(i + 1));
    assert forall j :: i < j < |pairs| ==> pairs[j].0 == coords[j];
    assert LastOccurrence(pairs, i);
    FromPairsLastWins(pairs, i);
  }

  /** `coords_to_dict(coords, label)`, with the label as `tag`: every
      coordinate becomes a key, labelled with the 1-based position of its
      last occurrence. */
  function CoordsToDict(coords: seq<(int, int)>, tag: string): (d: Dict<(int, int), string>)
    ensures Valid(d)
    ensures forall xy :: xy in d.entries <==> xy in coords
    ensures forall i :: 0 <= i < |coords| && (forall j :: i < j < |coords| ==> coords[j] != coords[i])
              ==> coords[i] in d.entries && d.entries[coords[i]] == tag + Decimal(i + 1)
  {
    FromPairsValid(Labelled(coords, tag));
    LabelledKeys(coords, tag);
    assert forall i :: 0 <= i < |coords| && (forall j :: i < j < |coords| ==> coords[j] != coords[i])
              ==> coords[i] in FromPairs(Labelled(coords, tag)).entries
                  && FromPairs(Labelled(coords, tag)).entries[coords[i]] == tag + Decimal(i + 1) by {
      forall i | 0 <= i < |coords| && (forall j :: i < j < |coords| ==> coords[j] != coords[i]) {
        LabelledValue(coords, tag, i);
      }
    }
    FromPairs(Labelled(coords, tag))
  }

  /** `zip(left, right)` as a list. */
  function Zip<A, B>(left: seq<A>, right: seq<B>): (pairs: seq<(A, B)>)
    requires |left| == |right|
  {
    seq(|left|, i requires 0 <= i < |left| => (left[i], right[i]))
  }

  /** `unzip_pairs(pairs)`: the first and the second components, as two
      lists; `([], [])` for no pairs. */
  function Unzip<A, B>(pairs: seq<(A, B)>): (r: (seq<A>, seq<B>))
    ensures |r.0| == |pairs| && |r.1| == |pairs|
    ensures forall i :: 0 <= i < |pairs| ==> r.0[i] == pairs[i].0 && r.1[i] == pairs[i].1
  {
    if |pairs| == 0 then ([], [])
    else (seq(|pairs|, i requires 0 <= i < |pairs| => pairs[i].0),
          seq(|pairs|, i requires 0 <= i < |pairs| => pairs[i].1))
  }

  /** Zipping the two halves back together recovers the pairs. */
  lemma ZipUnzip<A, B>(pairs: seq<(A, B)>)
    ensures |Unzip(pairs).0| == |Unzip(pairs).1| == |pairs|
    ensures Zip(Unzip(pairs).0, Unzip(pairs).1) == pairs
  {
  }

  /** Unzipping two equally long lists after zipping them gives them back. */
  lemma UnzipZip<A, B>(left: seq<A>, right: seq<B>)
    requires |left| == |right|
    ensures Unzip(Zip(left, right)) == (left, right)
  {
    if |left| > 0 {
      assert Unzip(Zip(left, right)).0 == left;
      assert Unzip(Zip(left, right)).1 == right;
    }
  }
}
